=== FILE: README.md ===
# kaprese in Dafny

kaprese is a harness that runs program-repair tools ("engines", each packaged
as a Docker image) against buggy programs ("benchmarks", each a Docker image
too). This project models its decision logic and proves properties of it:

- the runner's pull-or-build procedure (`Runner.run`);
- the lazy caches of a benchmark (`availability`, `language`, `ready`, `pull`, `cleanup`);
- the benchmark and engine registries, which keep one `<name>.json` record each under the configuration directory;
- the pure parts of the Docker adapter;
- both configuration singletons, and the `--kaprese-config` option of the top-level command;
- the selection, pair order and run loop of the `run` subcommand, against a reference fold of `Runner.run` over the pairs;
- the evaluation counters and the cafe evaluation fold.

Docker and the filesystem are abstract states that the operations thread through explicitly:

- `Docker.Runtime` holds the local images, the references a pull succeeds for, the pairs of build context and build arguments a build succeeds for, and the container outputs. It also keeps a log of every request sent, so contracts can say which requests an operation issues.
- `FileSystem.Fs` is a set of directories plus a map from file paths to decoded JSON documents.

Records are immutable datatypes. Each Python property read or assignment with a side effect is a function that returns the value together with the next state. Python exceptions are the `Err` case of `Common.Result`.

Modules:

| module | file | models |
|---|---|---|
| `Common` | common.dfy | options, results, Python errors, `str()` of options and booleans |
| `Strings` | strings.dfy | `str.strip` and `str.join` |
| `Template` | template.dfy | `str.format` with named fields and `{{`/`}}` escapes |
| `FileSystem` | filesystem.dfy | `pathlib` operations the core uses |
| `Store` | store.dfy | the shared register/load/unregister/list logic of the two registries |
| `Docker` | docker.dfy | kaprese/utils/docker.py |
| `Benchmarks` | benchmark.dfy | kaprese/core/benchmark.py |
| `Engines` | engine.dfy | kaprese/core/engine.py |
| `Config` | config.dfy | kaprese/core/config.py |
| `LegacyConfig` | legacy_config.dfy | kaprese/config/__init__.py |
| `Cli` | cli.dfy | the `--kaprese-config` option of kaprese/bin/kaprese.py |
| `Runner` | runner.dfy | kaprese/core/runner.py |
| `RunCommand` | run_command.dfy | kaprese/bin/kaprese_run.py |
| `Evaluation`, `Cafe` | eval.dfy | kaprese/core/eval.py and kaprese/eval/cafe.py |

Where the code as written fails at runtime, the model holds both versions:

- a member named `…AsWritten`, which follows the code, with a lemma that exhibits the failure;
- a corrected member, which the rest of the model uses.

See "## Findings".

## Model

| member | source | states |
|---|---|---|
| Docker.SplitTagAsWritten | kaprese/utils/docker.py:33 | `name.split(":")` unpacked into two names fails exactly when the name has two or more colons |
| Docker.SplitTag | kaprese/utils/docker.py:33 | a name without a colon pulls tag `latest`; otherwise repository, `:` and tag concatenate back to the name, and the tag has no colon |
| Docker.SplitTagAgrees | kaprese/utils/docker.py:33 | wherever the split as written succeeds, it agrees with the corrected split |
| Docker.SplitRunnerTag | kaprese/utils/docker.py:33 | a runner tag `image:name` whose image already has a colon breaks the split as written; the corrected split gives back image and name |
| Docker.ImageExists | kaprese/utils/docker.py:23-28 | the answer is whether the image is local; it never raises, and one lookup is sent |
| Docker.PullImage | kaprese/utils/docker.py:31-38 | a pull succeeds exactly for a pullable reference and then makes it local; one pull request with the split repository and tag |
| Docker.PullImageAsWritten | kaprese/utils/docker.py:31-38 | with two or more colons the pull raises before any request; otherwise it is the corrected pull |
| Docker.DeleteImage | kaprese/utils/docker.py:41-47 | the image is no longer local afterwards; a removal is sent only when it was present, so an absent image costs one lookup and nothing else |
| Docker.BuildImage | kaprese/utils/docker.py:50-77 | a build succeeds exactly for a buildable pair of context and build arguments and then makes the tag local; `None` build arguments are sent as the empty map, and a failure is False, not an exception |
| Docker.UnwrapWrap | kaprese/utils/docker.py:92 | wrapping a command in `/bin/bash -c "…"` loses nothing: the command is recovered exactly |
| Docker.ProbeArgs | kaprese/utils/docker.py:90-101 | a command is passed wrapped and only when given; `working_dir` only when a workdir is given; no volumes; the container is removed and not detached |
| Docker.RunCommand | kaprese/utils/docker.py:80-110 | an absent image gives `None` and starts no container; otherwise exactly one container runs, and its output or `None` on failure is returned |
| Docker.AbsoluteIdempotent | kaprese/utils/docker.py:115-116 | making a path absolute twice is making it absolute once |
| Docker.MakeMountDict | kaprese/utils/docker.py:113-120 | every mount binds an absolute destination with mode `rw` |
| Docker.MakeMountDictKeys | kaprese/utils/docker.py:113-120 | the keys are exactly the absolute sources |
| Docker.MakeMountDictLastWins | kaprese/utils/docker.py:113-120 | a source given more than once keeps its last destination, as in a dict comprehension |
| Docker.StreamArgs | kaprese/utils/docker.py:149-163 | the streaming run passes the wrapped command, the workdir, volumes only when a mount is given, is detached and not removed |
| Docker.RunCommandStream | kaprese/utils/docker.py:143-178 | an absent image yields a result whose stream and return code are both `None`, with no container; otherwise one detached container runs and the return code is its status code |
| Docker.SplitJoin | kaprese/utils/docker.py:188 | joining commands with `"; "` can be undone when no command contains the separator |
| Docker.RunCommandsStream | kaprese/utils/docker.py:181-191 | the streamed command is the list joined with `"; "`, or no command for `None` |
| Strings.Strip | kaprese/core/benchmark.py:32 | the result has no surrounding whitespace and is no longer than the input |
| Strings.StripRemovesOnlySpace | kaprese/core/benchmark.py:32 | what `strip` keeps is a contiguous part of the input, and everything it removed from either end is whitespace |
| Strings.StripIdempotent | kaprese/core/benchmark.py:32 | stripping twice is stripping once |
| Template.Format | kaprese/core/runner.py:58 | a template without braces formats to itself |
| Template.FormatEscape | kaprese/core/runner.py:58 | a string with its braces doubled formats back to itself |
| Template.FormatField | kaprese/core/runner.py:58 | a leading `{field}` is replaced by that field's value and the rest is formatted on |
| FileSystem.MakeDirs | kaprese/core/benchmark.py:63-64 | `mkdir(parents=True)` succeeds exactly when the path is missing and no ancestor is a file; it creates the path and only its ancestors, and keeps the filesystem well formed |
| FileSystem.WriteText | kaprese/core/config.py:64 | a write succeeds exactly when the parent is a directory and the path is not; it stores the document and changes nothing else |
| FileSystem.Unlink | kaprese/core/benchmark.py:80 | unlinking succeeds exactly for a file and removes only that file |
| Store.Register | kaprese/core/benchmark.py:61-71 | an existing record without `overwrite` is left alone; otherwise the directory is created if needed and the record written |
| Store.LookupAfterRegister | kaprese/core/benchmark.py:61-71 | a written record is read back by name |
| Store.RegisterKeepsExisting | kaprese/core/benchmark.py:66-69 | registering over an existing record without `overwrite` changes nothing |
| Store.Lookup | kaprese/core/benchmark.py:84-88 | a missing record reads as `None` and a stored one as its document |
| Store.Remove | kaprese/core/benchmark.py:76-80 | removing a missing record changes nothing; otherwise only that file goes |
| Store.LookupAfterRemove | kaprese/core/benchmark.py:76-80 | after removal the record reads as `None` and every other record as before |
| Store.JsonStems | kaprese/core/benchmark.py:103-104 | every `*.json` entry contributes its stem and nothing else is listed |
| Store.LoadEachFails | kaprese/core/benchmark.py:100-105 | loading a list of names raises exactly when loading one of them raises |
| Store.LoadEach | kaprese/core/benchmark.py:100-105 | the load-and-skip fold returns at most one record per name; its error, membership and order are stated by `LoadEachFails`, `LoadEachMembers` and `LoadEachAppend` |
| Store.LoadEachMembers | kaprese/core/benchmark.py:100-105 | each loaded record is what its own name loads, and every name that loads a record contributes it |
| Store.LoadEachAppend | kaprese/bin/kaprese_run.py:32-47 | loading two lists of names is loading each and concatenating, in order |
| Store.LoadEachSkipsMissing | kaprese/bin/kaprese_run.py:32-47 | a name without a record contributes nothing, for any loader |
| Store.LoadEachTwice | kaprese/bin/kaprese_run.py:32-47 | names are not de-duplicated: a list given twice loads each record twice, for any loader |
| Store.ListedRecord | kaprese/core/benchmark.py:98-108 | a stored record lies in an existing directory and its name is among the listed stems |
| Benchmarks.New | kaprese/core/benchmark.py:17-25 | a new benchmark keeps its init fields and starts unavailable |
| Benchmarks.Availability | kaprese/core/benchmark.py:36-40 | a cached true is answered without a request; otherwise one lookup decides, and its answer is cached |
| Benchmarks.Language | kaprese/core/benchmark.py:27-34 | a cached language is answered without a request; a probe container runs only when none is cached and the image is available; the probed output is stripped and cached |
| Benchmarks.LanguageProbedOnce | kaprese/core/benchmark.py:27-34 | once a language was read, reading it again sends nothing and changes nothing |
| Benchmarks.Ready | kaprese/core/benchmark.py:42-44 | `ready` holds exactly when the benchmark is available and has a language |
| Benchmarks.ReadyStable | kaprese/core/benchmark.py:42-44 | once ready, reading `ready` again sends nothing and changes nothing |
| Benchmarks.Pull | kaprese/core/benchmark.py:46-50 | a pull is requested exactly when the image is unavailable or `force` is set; nothing is built or removed; the benchmark image becomes local exactly when a pull was sent and the registry has it, and no other image changes |
| Benchmarks.PullAsWritten | kaprese/core/benchmark.py:46-50 | once a pull is due, an image with two or more colons raises `ValueError` before any pull request (the split at kaprese/utils/docker.py:33); in every other case the as-written pull is the corrected `Benchmarks.Pull` |
| Benchmarks.CleanupAsWritten | kaprese/core/benchmark.py:52-59 | the language cache is cleared exactly when a language command is configured; with `delete_image` the image is removed and no other image changes; the availability flag ends true exactly when the image was deleted |
| Benchmarks.CleanupAsWrittenLeavesStaleFlag | kaprese/core/benchmark.py:52-59 | after `cleanup(delete_image=True)` of a present image the image is gone, yet `availability` answers true without asking |
| Benchmarks.CleanupCalls | kaprese/core/benchmark.py:56-58 | with `delete_image`, the requests are a fresh check and, only when the image is present, its deletion |
| Benchmarks.Cleanup | kaprese/core/benchmark.py:52-59 | the benchmark is left unavailable; the language cache is cleared exactly when a language command is configured; the image is removed only with `delete_image` and only if present |
| Benchmarks.CleanupIdempotent | kaprese/core/benchmark.py:52-59 | cleaning up twice leaves the benchmark as once and deletes nothing more |
| Benchmarks.ToJsonAsWritten | kaprese/core/benchmark.py:90-95 | the saved record includes the non-init `_availablility` field |
| Benchmarks.LoadOfSaveAsWrittenFails | kaprese/core/benchmark.py:88-95 | loading a record saved as written always raises |
| Benchmarks.ToJson | kaprese/core/benchmark.py:90-95 | the corrected record holds only constructor arguments, with `_language` exactly when one is cached |
| Benchmarks.FromJson | kaprese/core/benchmark.py:88 | a record loads only if it is an object of known keys with a name and an image, and loads unavailable |
| Benchmarks.LoadSaveRoundTrip | kaprese/core/benchmark.py:88-95 | loading a saved benchmark gives it back, with its availability reset |
| Benchmarks.Register | kaprese/core/benchmark.py:61-71 | registration under `<config>/benchmarks` never overwrites without `overwrite` |
| Benchmarks.Load | kaprese/core/benchmark.py:82-88 | a missing record loads as `None`; a loaded benchmark starts unavailable |
| Benchmarks.LoadAfterRegister | kaprese/core/benchmark.py:61-88 | a registered benchmark loads back by name |
| Benchmarks.Unregister | kaprese/core/benchmark.py:73-80 | a missing record is left alone; cleanup runs only when asked; afterwards the benchmark no longer loads |
| Benchmarks.UnregisterKeepsOthers | kaprese/core/benchmark.py:73-80 | unregistering one benchmark does not change how any other loads |
| Benchmarks.AllBenchmarks | kaprese/core/benchmark.py:98-108 | a missing directory lists nothing; the listing raises exactly when loading one of the `*.json` stems of `path` from the configured directory raises; otherwise it holds exactly the benchmarks those stems load, stems without a record dropped |
| Benchmarks.AllBenchmarksListsEveryRecord | kaprese/core/benchmark.py:98-108 | when the listing succeeds, every benchmark record stored under a non-empty name loads and appears in it |
| Engines.DefaultName | kaprese/core/engine.py:18-20 | the default name is `kaprese-` and the first seven digits of the UUID |
| Engines.PostInit | kaprese/core/engine.py:26-28 | the image becomes non-empty: an empty one becomes `kaprese-engine-<name>`, a non-empty one is kept, and no other field changes |
| Engines.PostInitIdempotent | kaprese/core/engine.py:26-28 | applying the default twice is applying it once |
| Engines.New | kaprese/core/engine.py:16-28 | the constructor keeps the given fields, names a nameless engine `kaprese-…`, and never leaves the image empty |
| Engines.StrListRoundTrip | kaprese/core/engine.py:30-48 | a list of strings survives save and load |
| Engines.StrMapRoundTrip | kaprese/core/engine.py:30-48 | a map of strings survives save and load |
| Engines.Dump | kaprese/core/engine.py:30-31 | the dump has exactly the constructor's keyword arguments as keys |
| Engines.FromJson | kaprese/core/engine.py:47-48 | a record loads only if it is an object of constructor keywords; the engine has the stored name and a non-empty image |
| Engines.LoadDumpRoundTrip | kaprese/core/engine.py:30-48 | loading a dumped engine gives the engine back after its post-init default, unchanged when that was already applied |
| Engines.Register | kaprese/core/engine.py:50-60 | registration under `<config>/engines` never overwrites without `overwrite` |
| Engines.Load | kaprese/core/engine.py:42-48 | a missing record loads as `None` |
| Engines.LoadAfterRegister | kaprese/core/engine.py:42-60 | a registered engine loads back by name |
| Engines.AllEngines | kaprese/core/engine.py:63-69 | a missing directory lists nothing; the listing raises exactly when loading one of the `*.json` stems of `path` from the configured directory raises; otherwise it holds exactly the engines those stems load, stems without a record dropped, each with an image |
| Engines.AllEnginesListsEveryRecord | kaprese/core/engine.py:63-69 | when the listing succeeds, every engine record stored under a non-empty name loads and appears in it |
| Config.SockFromDocument | kaprese/core/config.py:49-56 | an object contributes its socket entry or `None`, ignoring other keys; a document that is not a mapping or a sequence of pairs raises |
| Config.SockFromPairs | kaprese/core/config.py:53-56 | updating with a list raises exactly when some item is not a key/value pair; otherwise the value of the last pair keyed by the socket key wins, or the start value stays when there is none |
| Config.UpdateOne | kaprese/core/config.py:55 | in the model, one list item updates exactly when it is a two-element list with a hashable key or a two-character string (a narrower set than `dict.update` accepts, see "## Left out"), and it sets the socket value exactly when keyed by the socket key |
| Config.SockFromPairsLastWins | kaprese/core/config.py:55-56 | appending a socket-keyed pair to a list of pairs makes its value the result: later pairs win |
| Config.ReadDockerConfig | kaprese/core/config.py:49-56 | no `docker.json` means no socket path; a file's socket entry is adopted, a file without one gives `None`; a directory in its place raises |
| Config.Reload | kaprese/core/config.py:77-81 | a reload re-reads the socket path from `<dir>/docker.json`; if reading raises, the socket path stays `None` |
| Config.Init | kaprese/core/config.py:83-84 | the singleton starts at `~/.kaprese`, with no socket path when that directory has no `docker.json` |
| Config.SetConfigPath | kaprese/core/config.py:38-43 | setting the directory moves `docker.json` under it and re-reads the socket path from there, forgetting the old one |
| Config.Guard | kaprese/core/config.py:15-26 | a missing configuration directory is created; an existing one is left alone |
| Config.WriteDockerConfig | kaprese/core/config.py:58-64 | the guarded write stores `{"DOCKER_SOCK_PATH": …}` and only that file; it succeeds in an existing directory unless `docker.json` is a directory |
| Config.SetSockPath | kaprese/core/config.py:71-74 | the new socket path is kept in memory even if writing raises; a successful write stores it under the socket key |
| Config.ReloadAfterSetSockPath | kaprese/core/config.py:58-81 | a socket path that was written reads back after a reload from the same directory |
| Config.SetSockPathSucceeds | kaprese/core/config.py:58-74 | setting the socket path in an existing, writable directory never raises |
| Config.SetSockPathCreatesDirectory | kaprese/core/config.py:20-24 | setting the socket path creates a missing directory, unless a file stands in the way |
| LegacyConfig.KeysAgree | kaprese/config/__init__.py:12-15 | `KEYS` is `CONFIG_PATH` then `DOCKER_SOCK_PATH`, the newer module's keys in the same order |
| LegacyConfig.SetConfigPath | kaprese/config/__init__.py:27-30 | assigning `CONFIG_PATH` on the older singleton has the same effect as on the newer one: the directory is stored and the socket path re-read from its `docker.json` |
| LegacyConfig.WriteDockerConfig | kaprese/config/__init__.py:44-48 | without a guard, the write succeeds exactly when the directory exists and `docker.json` is not a directory |
| LegacyConfig.SetSockPath | kaprese/config/__init__.py:55-58 | the value is kept in memory; the write succeeds exactly when the directory exists |
| LegacyConfig.SetSockPathAgainstGuarded | kaprese/config/__init__.py:44-58 | with an existing directory both modules behave alike; with a missing one the older raises `FileNotFoundError` |
| LegacyConfig.ReloadAfterSetSockPath | kaprese/config/__init__.py:55-65 | a written socket path reads back after a reload |
| Cli.Start | kaprese/bin/kaprese.py:7 | both singletons start at the same `~/.kaprese` |
| Cli.ApplyConfigOptionAsWritten | kaprese/bin/kaprese.py:34-35 | the option changes only the older singleton |
| Cli.ConfigOptionIgnoredAsWritten | kaprese/bin/kaprese.py:34-35 | after `--kaprese-config d`, the registries still read the directory chosen at start |
| Cli.ApplyConfigOption | kaprese/bin/kaprese.py:34-35 | the corrected option sets the directory on the singleton the registries read |
| Cli.ConfigOptionMovesRegistries | kaprese/bin/kaprese.py:34-35 | with the corrected option both registries move under the given directory |
| Runner.Gate | kaprese/core/runner.py:13-18 | the gate passes exactly when the benchmark ends up ready; a ready benchmark passes with no request and without preparing; a benchmark found not ready is prepared once and `ready` is read again, which decides the gate |
| Runner.ProcessBuildArgs | kaprese/core/runner.py:57-58 | it succeeds exactly when every value formats; the keys are the input keys and each value is its template formatted against the benchmark |
| Runner.ProcessBuildArgsPlain | kaprese/core/runner.py:57-58 | build arguments without replacement fields pass through unchanged |
| Runner.ProcessBuildArgsField | kaprese/core/runner.py:57-58 | a `{benchmark.<attr>}` value becomes that attribute of the benchmark |
| Runner.Provision | kaprese/core/runner.py:20-43 | the first request is the tag lookup; a local tag is neither pulled nor built; a pulled tag is not built; nothing is built without a location; the result is true exactly when the tag was local, pullable or buildable; the tag becomes local exactly on success and no other image changes; nothing is removed |
| Runner.Fallback | kaprese/core/runner.py:23-43 | for a tag that is not local: the first request is the pull; a pulled tag is not built; nothing is built without a location; the result is true exactly when the tag is pullable or buildable with formatted build arguments; the tag becomes local exactly on success and no other image changes |
| Runner.ProvisionAsWritten | kaprese/core/runner.py:20-43 | the fallback as written raises exactly for an absent tag that has two or more colons, or that is not pullable and has a location whose build arguments do not format |
| Runner.ProvisionAsWrittenAgrees | kaprese/core/runner.py:21-24 | the fallback as written agrees with the corrected one except for an absent tag with two or more colons, where it raises |
| Runner.Finish | kaprese/core/runner.py:20-55 | as `Runner.Provision`; the tag is removed exactly when it was obtained and `delete_runner` is set; the local images then lose the tag, or else gain it on success, and nothing else changes |
| Runner.Run | kaprese/core/runner.py:12-55 | a benchmark still not ready after one `prepare` returns false with no request of `run`'s own; otherwise the tag is `engine.image:benchmark.name`, tried local, then pulled, then built; the result is true exactly when the tag was obtained, deletion happens exactly on that path when `delete_runner` is set, and only the runner tag among the local images changes after the gate |
| Runner.RunNotReady | kaprese/core/runner.py:16-18 | a benchmark that stays unready makes `run` return false and send nothing after the gate |
| Runner.RunPlainNeverRaises | kaprese/core/runner.py:34 | an engine whose build arguments hold no replacement field never makes `run` raise |
| Runner.RunAsWritten | kaprese/core/runner.py:12-55 | as written, a benchmark that is not ready raises `AttributeError` (`prepare`), and so does reaching the build (`build_args`) |
| Runner.RunAsWrittenCannotBuild | kaprese/core/runner.py:34 | as written, an absent, unpullable tag of an engine with a location raises instead of building |
| Runner.RunAsWrittenAgrees | kaprese/core/runner.py:12-55 | whenever the run as written returns a boolean, the corrected run returns the same, for any `prepare` |
| RunCommand.Select | kaprese/bin/kaprese_run.py:32-47 | the selection succeeds exactly when `-e` and `-b` are given and every load succeeds, and then holds the names that load, in argument order; a missing `-e` or `-b` raises `TypeError`; an engine load error is raised before any benchmark is loaded |
| RunCommand.SelectSkipsUnknown | kaprese/bin/kaprese_run.py:40-47 | a benchmark name without a record is skipped and the others keep their order |
| RunCommand.SelectSkipsUnknownEngine | kaprese/bin/kaprese_run.py:32-39 | an engine name without a record is skipped and the others keep their order |
| RunCommand.SelectKeepsDuplicates | kaprese/bin/kaprese_run.py:40-47 | benchmark names given twice load twice |
| RunCommand.SelectKeepsDuplicateEngines | kaprese/bin/kaprese_run.py:32-39 | engine names given twice load twice |
| RunCommand.PairOrder | kaprese/bin/kaprese_run.py:48 | the product of `m` engines and `n` benchmarks has `m·n` pairs, each naming an existing engine and benchmark |
| RunCommand.PairOrderIndex | kaprese/bin/kaprese_run.py:48 | pair `(i, j)` is run at position `i·n + j`: every pair once, engines outer |
| RunCommand.PairOrderGrows | kaprese/bin/kaprese_run.py:48 | the pairs of the first engines are a prefix of all pairs |
| RunCommand.RunPairs | kaprese/bin/kaprese_run.py:48-50 | the reference fold keeps one state per benchmark; its visits and exceptions are stated by `RunPairsVisits` and `RunPairsNeverRaises` |
| RunCommand.RunPairsVisits | kaprese/bin/kaprese_run.py:48-50 | running a sequence of pairs runs all of them unless one raises, and then exactly those up to the one that raised |
| RunCommand.RunPairsNeverRaises | kaprese/bin/kaprese_run.py:48-50 | with runs that never raise, every pair runs |
| RunCommand.PlainNeverRaises | kaprese/bin/kaprese_run.py:49-50 | a run with build arguments free of braces never raises |
| RunCommand.RunEach | kaprese/bin/kaprese_run.py:48-50 | the loop computes the reference fold: each pair's run sees the benchmark states and runtime the earlier runs left, and the first exception ends it |
| RunCommand.RunAll | kaprese/bin/kaprese_run.py:48-50 | the loop is `Runner(bench, engine).run()` folded over the pairs in product order, threading the shared benchmark states and the runtime, results ignored; an exception stops it after a prefix of the pairs; plain build arguments never stop it |
| RunCommand.Execute | kaprese/bin/kaprese_run.py:32-50 | the command succeeds exactly when the selection does; a selection error is raised before any run; otherwise the result is the runs of the selected pairs in product order, as the reference fold defines them |
| Evaluation.NewEval | kaprese/core/eval.py:2-5 | a new tally counts nothing and is valid |
| Evaluation.IncreaseTotalCount | kaprese/core/eval.py:7-9 | the total grows by one, the correct count stays, and the tally stays valid |
| Evaluation.IncreaseCorrectCount | kaprese/core/eval.py:11-14 | both counts grow by one, so the correct count never exceeds the total |
| Evaluation.Accuracy | kaprese/core/eval.py:24-26 | accuracy is 0 with no outputs and otherwise the share of correct ones, between 0 and 1 for a valid tally |
| Evaluation.Tally | kaprese/core/eval.py:7-14 | recording outputs one by one from a fresh counter counts each once and the correct ones among them, whatever their order, and stays valid |
| Cafe.EvalCafe | kaprese/eval/cafe.py:7-21 | listing a missing directory raises; files are ignored; the total is the number of benchmark directories and the correct count the number with a `fixed.ml` below them; the tally is for `cafe` and valid |

## Left out

- Docker SDK internals are left out: the daemon connection, the socket path setting, log streaming, `stop`, `wait`, `remove` and error payloads. The runtime's sets decide every outcome.
- Docker.DeleteImage: the `APIError` that `images.remove` may raise is not modelled; a present image is always removed.
- Docker.Reference: digest references (`@sha256:…`) are not modelled.
- Docker.Absolute: path normalisation is left out; only joining with the working directory, which is a parameter, is modelled.
- Docker.RunCommand: only `ContainerError` is caught in the source. An `APIError` or `ImageNotFound` from `containers.run`, and a `UnicodeDecodeError` from decoding output that is not UTF-8, propagate through `language` and `ready` into `run`; the model never raises here and treats the output as text.
- Docker.SplitTag: a colon is taken as the tag separator even when a `/` follows it, so `localhost:5000/tool` gets the tag `5000/tool` where Docker reads the tag `latest`. The code as written does the same. Docker.Reference inherits this and leaves such a name untagged.
- Docker.RunCommandStream: the caller's block runs between start and stop; the model only returns the final logs and status code. A container that cannot be started raises one generic `APIError`; the specific SDK error (`ImageNotFound` or another `APIError`) is not distinguished.
- JSON text is abstracted to its decoded value, so parse errors and numbers do not arise, and `indent=4` formatting is left out.
- FileSystem: directory listings are a parameter, and `glob("*.json")` is modelled by stems of `*.json` entries. Symbolic links are left out.
- Template.Format: `{benchmark}` itself (the dataclass repr), format specs, conversions, indexing, and attributes that name a method or a dunder (`{benchmark.pull}`, `{benchmark.__class__}`, which Python renders as a repr) are errors in the model, not their Python results.
- Store.RecordPath: a name is kept as one path component. `pathlib` nests a name containing `/`, so `register` of `a/b` writes `b.json` in a subdirectory `a`; the model does not.
- Benchmarks.FromJson: a field of the wrong JSON type (a null `name`, say) raises `TypeError` in the model. The dataclass constructor does not check types, so the source loads such a record and fails, if at all, only where the value is used.
- Engines.FromJson: a field of the wrong JSON type (`"supported_os": "linux"`, say) raises `TypeError` in the model, while the source's constructor accepts it. A record with a `build_args` key loads in the model, while the source's constructor raises `TypeError` for it.
- Engines.Dump: the engine carries the `build_args` templates the runner reads (see the runner.py:34 row under Findings), so the dump has a sixth key that `asdict` of the five-field dataclass does not write.
- Docker.BuildImage: the tag and `nocache` do not affect whether a build succeeds; the context and the build arguments do.
- The `config` subcommand's handler is called as `main(remainder, args=args)` against its signature `(parser, argv, args)` (kaprese/bin/kaprese.py:40), which raises `TypeError`; the handler and its call are outside this model.
- Runner.ProcessBuildArgs: on failure the model returns one fixed `ValueError`, because its maps are unordered. Python raises the error of the first failing value in dict order.
- Runner.ProcessBuildArgs: it requires a ready benchmark, since `run` formats only after the gate. Reading a property during formatting therefore never queries the runtime.
- Runner.Prepare: the benchmark class has no `prepare`. The corrected runner takes it as an arbitrary transition.
- Config.SockFromPairs: a two-key JSON object used as a pair inside a list is treated as an error rather than as its two keys.
- Config.UpdateOne: the same gap item by item: `dict.update` accepts a two-key JSON object as a pair (iterating it yields its keys), while the model raises `TypeError` for it.
- Benchmarks.Pull: it pulls through the corrected split of `Docker.PullImage`; the `ValueError` that the split as written raises for an image with two or more colons is stated by Benchmarks.PullAsWritten instead.
- Engines.Load: one UUID is supplied per call of `Load` or `AllEngines`, rather than a fresh one per constructed engine.
- Logging, console output, argparse parsing, and the `rich` tables of the other subcommands are left out, as UI.
- The preset engine and benchmark tables are constant data and are left out.
- Evaluation.Accuracy: the division is exact real division, where the source divides floats and returns the integer `0` with no outputs; rounding and the `:.2f%` rendering of the float are left out.
- Evaluation: the counter updates are Python properties that mutate on read; each read is one function application.

## Findings

| source | as written | input that shows it | evidently intended | confidence | as-written member | corrected member |
|---|---|---|---|---|---|---|
| kaprese/core/runner.py:13-15 | a benchmark that is not ready is sent `prepare()`, which `Benchmark` does not define | any benchmark whose image is not local | prepare the benchmark, then re-check `ready` | not executed | Runner.RunAsWritten | Runner.Run |
| kaprese/core/runner.py:34 | the build reads `engine.build_args`, which `Engine` does not declare | an engine with a location whose runner tag is neither local nor pullable | build with the engine's build-argument templates | not executed | Runner.RunAsWrittenCannotBuild | Runner.Run |
| kaprese/core/benchmark.py:25,88-95 | `save` writes the non-init field `_availablility`, which `load` passes to the constructor | any registered benchmark, loaded back | save only constructor arguments | not executed | Benchmarks.LoadOfSaveAsWrittenFails | Benchmarks.LoadSaveRoundTrip |
| kaprese/bin/kaprese.py:7,35 | `--kaprese-config` is assigned on the older singleton, while the registries read the newer one, which keeps the default directory | no released input reaches a registry read: `config` is the only registered subcommand (kaprese/bin/kaprese.py:27-30), and `kaprese --kaprese-config /tmp/k config show` applies the option to the older singleton only, then raises `TypeError` at kaprese/bin/kaprese.py:40; the defect is latent and surfaces once a subcommand that reads a registry is registered | the registries use the given directory | not executed | Cli.ConfigOptionIgnoredAsWritten | Cli.ConfigOptionMovesRegistries |
| kaprese/utils/docker.py:33 | `name.split(":")` unpacks into two names, which fails for a registry with a port | pulling `localhost:5000/tool:bench` | split at the last colon | not executed | Docker.SplitRunnerTag | Docker.SplitTag |
| kaprese/core/benchmark.py:56-58 | `cleanup(delete_image=True)` resets the flag, then re-checks availability before deleting, which sets it back to true | cleanup with deletion of a local benchmark image | the benchmark is unavailable after its image is deleted | not executed | Benchmarks.CleanupAsWrittenLeavesStaleFlag | Benchmarks.Cleanup |

=== FILE: benchmark.dfy ===
/** The `Benchmark` entity of kaprese/core/benchmark.py: a container image
    holding a buggy program, with a lazily probed language and a cached
    availability flag. Python's mutating properties become functions from
    the benchmark and the runtime to the value read, the updated benchmark
    and the updated runtime. */
module Benchmarks {
  import opened Common
  import opened FileSystem
  import Docker
  import Strings
  import Store

  /** The dataclass fields: `_language` is `language` here and the
      `init=False` field `_availablility` is `available`. */
  datatype Benchmark = Benchmark(
    name: Str,
    image: Str,
    language: Option<Str>,
    languageCommand: Option<Str>,
    available: bool)

  /** A property read: its value and the state it leaves behind. */
  datatype Step<T> = Step(value: T, bench: Benchmark, rt: Docker.Runtime)

  /** The state a method that returns `self` leaves behind. */
  datatype State = State(bench: Benchmark, rt: Docker.Runtime)

  /** Name, image and language command are never changed after
      construction. */
  predicate SameIdentity(a: Benchmark, b: Benchmark) {
    a.name == b.name && a.image == b.image && a.languageCommand == b.languageCommand
  }

  /** The constructor: the availability flag starts false. */
  function New(name: Str, image: Str, language: Option<Str>, languageCommand: Option<Str>): (b: Benchmark)
    ensures !b.available
    ensures b.name == name && b.image == image && b.language == language && b.languageCommand == languageCommand
  {
    Benchmark(name, image, language, languageCommand, false)
  }

  // ---------------------------------------------------------------------
  // Lazy properties

  /** The `availability` property: while the flag is false the runtime is
      asked whether the image exists and the answer is cached; once the flag
      is true it is returned without asking. */
  function Availability(b: Benchmark, rt: Docker.Runtime): (r: Step<bool>)
    ensures b.available ==> r == Step(true, b, rt)
    ensures !b.available ==>
      && r.value == (Docker.Reference(b.image) in rt.images)
      && r.rt.calls == rt.calls + [Docker.ImagesGet(b.image)]
    ensures r.bench == b.(available := r.value)
    ensures Docker.Extends(rt, r.rt) && r.rt.images == rt.images
  {
    if b.available then Step(true, b, rt)
    else
      var e := Docker.ImageExists(rt, b.image);
      Step(e.value, b.(available := e.value), e.rt)
  }

  /** The `language` property: a cached language is returned without any
      request. Otherwise, only if the image is available, the language
      command is run in the image once, and its stripped output (or `None`
      when the run fails) is cached and returned. */
  function Language(b: Benchmark, rt: Docker.Runtime): (r: Step<Option<Str>>)
    ensures b.language.Some? ==> r == Step(b.language, b, rt)
    ensures r.bench.language == r.value
    ensures SameIdentity(b, r.bench) && (b.available ==> r.bench.available)
    ensures Docker.Extends(rt, r.rt) && r.rt.images == rt.images
    ensures Docker.RunsContainer(Docker.NewCalls(rt, r.rt)) ==> b.language.None? && r.bench.available
    ensures b.language.None? && r.bench.available && Docker.Reference(b.image) in rt.images ==>
      var args := Docker.ProbeArgs(b.languageCommand, None);
      && Docker.ContainersRun(b.image, args) in Docker.NewCalls(rt, r.rt)
      && (r.value.Some? <==> (b.image, args) in rt.outputs)
      && (r.value.Some? ==> r.value.value == Strings.Strip(rt.outputs[(b.image, args)]))
    ensures b.language.None? && r.value.Some? ==> Strings.Stripped(r.value.value)
  {
    if b.language.Some? then Step(b.language, b, rt)
    else
      var a := Availability(b, rt);
      if !a.value then
        assert Docker.NewCalls(rt, a.rt) == a.rt.calls[|rt.calls|..];
        Step(None, a.bench, a.rt)
      else
        var o := Docker.RunCommand(a.rt, b.image, b.languageCommand, None);
        var out := if o.value.Some? then Some(Strings.Strip(o.value.value)) else None;
        assert Docker.NewCalls(rt, o.rt) == Docker.NewCalls(rt, a.rt) + Docker.NewCalls(a.rt, o.rt);
        assert Docker.Reference(b.image) in rt.images ==>
          Docker.NewCalls(a.rt, o.rt)[1] == Docker.ContainersRun(b.image, Docker.ProbeArgs(b.languageCommand, None));
        Step(out, a.bench.(language := out), o.rt)
  }

  /** A probed language is cached: reading it again sends no request and
      gives the same value. */
  lemma LanguageProbedOnce(b: Benchmark, rt: Docker.Runtime)
    requires Language(b, rt).value.Some?
    ensures var r := Language(b, rt); Language(r.bench, r.rt) == Step(r.value, r.bench, r.rt)
  {
  }

  /** The `ready` property: available and with a known language. A ready
      benchmark stays ready and reading `ready` again sends no request. */
  function Ready(b: Benchmark, rt: Docker.Runtime): (r: Step<bool>)
    ensures r.value <==> r.bench.available && r.bench.language.Some?
    ensures b.available && b.language.Some? ==> r == Step(true, b, rt)
    ensures SameIdentity(b, r.bench)
    ensures Docker.Extends(rt, r.rt) && r.rt.images == rt.images
  {
    var a := Availability(b, rt);
    if !a.value then Step(false, a.bench, a.rt)
    else
      var l := Language(a.bench, a.rt);
      Step(l.value.Some?, l.bench, l.rt)
  }

  /** Once `ready` has been true, reading it again is free and true. */
  lemma ReadyStable(b: Benchmark, rt: Docker.Runtime)
    requires Ready(b, rt).value
    ensures var r := Ready(b, rt); Ready(r.bench, r.rt) == Step(true, r.bench, r.rt)
  {
  }

  // ---------------------------------------------------------------------
  // Methods

  /** `pull`: the image is pulled only when the benchmark is not available
      or `force` is set. The benchmark is returned with the flag from the
      availability check: a pull does not refresh it. */
  function Pull(b: Benchmark, rt: Docker.Runtime, force: bool): (r: State)
    ensures r.bench == Availability(b, rt).bench
    ensures Docker.Extends(rt, r.rt)
    ensures Docker.Pulls(Docker.NewCalls(rt, r.rt)) <==> !Availability(b, rt).value || force
    ensures !Docker.Builds(Docker.NewCalls(rt, r.rt)) && !Docker.Removes(Docker.NewCalls(rt, r.rt))
    ensures r.rt.images ==
      if (!Availability(b, rt).value || force) && Docker.Reference(b.image) in rt.registry
      then rt.images + {Docker.Reference(b.image)}
      else rt.images
  {
    var a := Availability(b, rt);
    var probe := if b.available then [] else [Docker.ImagesGet(b.image)];
    assert Docker.NewCalls(rt, a.rt) == probe;
    if !a.value || force then
      var p := Docker.PullImage(a.rt, b.image);
      var pull := Docker.ImagesPull(Docker.SplitTag(b.image).0, Docker.SplitTag(b.image).1);
      assert Docker.NewCalls(rt, p.rt) == probe + [pull];
      assert (probe + [pull])[|probe|] == pull;
      State(a.bench, p.rt)
    else State(a.bench, a.rt)
  }

  /** `pull` as written: the image name is split by `pull_image` at every
      colon, so an image with two or more colons (a registry with a port
      and a tag) raises `ValueError` once a pull is due, before any pull
      request; otherwise it is the corrected `Pull`. */
  function PullAsWritten(b: Benchmark, rt: Docker.Runtime, force: bool): (r: Step<Result<()>>)
    ensures r.value.Err? <==> (!Availability(b, rt).value || force) && Docker.Count(b.image, ':') >= 2
    ensures r.value.Err? ==> r.bench == Availability(b, rt).bench && r.rt == Availability(b, rt).rt
    ensures r.value.Ok? ==> State(r.bench, r.rt) == Pull(b, rt, force)
  {
    var a := Availability(b, rt);
    if !a.value || force then
      var p := Docker.PullImageAsWritten(a.rt, b.image);
      if p.value.Err? then Step(Err(p.value.error), a.bench, p.rt)
      else Step(Ok(()), a.bench, p.rt)
    else Step(Ok(()), a.bench, a.rt)
  }

  /** `cleanup`, as written: the language cache is cleared only when a
      language command is configured, the availability flag is reset, and
      then, with `delete_image`, availability is checked afresh and the
      image deleted if present. That fresh check sets the flag back to true,
      so the benchmark claims availability for an image just deleted. */
  function CleanupAsWritten(b: Benchmark, rt: Docker.Runtime, deleteImage: bool): (r: State)
    ensures SameIdentity(b, r.bench)
    ensures Docker.Extends(rt, r.rt)
    ensures r.bench.language == if b.languageCommand.Some? then None else b.language
    ensures r.bench.available <==> deleteImage && Docker.Reference(b.image) in rt.images
    ensures r.rt.images == if deleteImage then rt.images - {Docker.Reference(b.image)} else rt.images
  {
    var b1 := if b.languageCommand.Some? then b.(language := None) else b;
    var b2 := b1.(available := false);
    if !deleteImage then State(b2, rt)
    else
      var a := Availability(b2, rt);
      if a.value then State(a.bench, Docker.DeleteImage(a.rt, b.image))
      else State(a.bench, a.rt)
  }

  /** The stale flag: after `cleanup(delete_image=True)` of a present image
      the image is gone, yet `availability` answers true without asking. */
  lemma CleanupAsWrittenLeavesStaleFlag(b: Benchmark, rt: Docker.Runtime)
    requires Docker.Reference(b.image) in rt.images
    ensures var r := CleanupAsWritten(b, rt, true);
      && Docker.Reference(b.image) !in r.rt.images
      && Availability(r.bench, r.rt) == Step(true, r.bench, r.rt)
  {
  }

  /** The requests of `cleanup(delete_image=True)`: one existence check,
      then the deletion's own check and removal when the image is there. */
  lemma CleanupCalls(b: Benchmark, rt: Docker.Runtime)
    ensures var s := CleanupAsWritten(b, rt, true);
      Docker.NewCalls(rt, s.rt) ==
        if Docker.Reference(b.image) in rt.images
        then [Docker.ImagesGet(b.image), Docker.ImagesGet(b.image), Docker.ImagesRemove(b.image)]
        else [Docker.ImagesGet(b.image)]
    ensures var s := CleanupAsWritten(b, rt, true);
      Docker.Removes(Docker.NewCalls(rt, s.rt)) <==> Docker.Reference(b.image) in rt.images
  {
    var s := CleanupAsWritten(b, rt, true);
    if Docker.Reference(b.image) in rt.images {
      assert Docker.NewCalls(rt, s.rt)[2].ImagesRemove?;
    }
  }

  /** `cleanup` as evidently intended: as written, but the benchmark is
      left unavailable. The language cache is cleared exactly when a
      language command is configured, and the image is deleted only with
      `delete_image` and only after a fresh check found it. */
  function Cleanup(b: Benchmark, rt: Docker.Runtime, deleteImage: bool): (r: State)
    ensures !r.bench.available
    ensures r.bench.language == if b.languageCommand.Some? then None else b.language
    ensures SameIdentity(b, r.bench)
    ensures Docker.Extends(rt, r.rt)
    ensures !deleteImage ==> r.rt == rt
    ensures Docker.Removes(Docker.NewCalls(rt, r.rt)) <==> deleteImage && Docker.Reference(b.image) in rt.images
    ensures deleteImage ==> Docker.Reference(b.image) !in r.rt.images
    ensures r.rt.images == if deleteImage then rt.images - {Docker.Reference(b.image)} else rt.images
  {
    var s := CleanupAsWritten(b, rt, deleteImage);
    CleanupCalls(b, rt);
    State(s.bench.(available := false), s.rt)
  }

  /** Cleaning up twice leaves the benchmark as cleaning up once, and the
      second cleanup deletes nothing. */
  lemma CleanupIdempotent(b: Benchmark, rt: Docker.Runtime, deleteImage: bool)
    ensures var r := Cleanup(b, rt, deleteImage);
      var r2 := Cleanup(r.bench, r.rt, deleteImage);
      r2.bench == r.bench && !Docker.Removes(Docker.NewCalls(r.rt, r2.rt))
  {
  }

  // ---------------------------------------------------------------------
  // Persisted form

  /** The keyword arguments the constructor accepts. */
  const InitFields: set<Str> := {"name", "image", "_language", "language_command"}

  function OptionalJson(o: Option<Str>): Json {
    if o.None? then JNull else JStr(o.value)
  }

  /** `save`, as written: `dataclasses.asdict` keeps every field, the
      `init=False` flag `_availablility` included; only a `None` language
      is dropped. */
  function ToJsonAsWritten(b: Benchmark): (j: Json)
    ensures j.JObject? && "_availablility" in j.fields
  {
    var fields := map["name" := JStr(b.name), "image" := JStr(b.image),
                      "language_command" := OptionalJson(b.languageCommand),
                      "_availablility" := JBool(b.available)];
    JObject(if b.language.Some? then fields["_language" := JStr(b.language.value)] else fields)
  }

  /** `save` as evidently intended: the record without the availability
      flag, which is transient runtime state. */
  function ToJson(b: Benchmark): (j: Json)
    ensures j.JObject? && j.fields.Keys <= InitFields
    ensures "_language" in j.fields <==> b.language.Some?
  {
    var fields := map["name" := JStr(b.name), "image" := JStr(b.image),
                      "language_command" := OptionalJson(b.languageCommand)];
    JObject(if b.language.Some? then fields["_language" := JStr(b.language.value)] else fields)
  }

  /** An optional string keyword: absent or `null` is `None`. Yields
      `None` for a value of another JSON type. */
  function OptionalField(fields: map<Str, Json>, key: Str): Option<Option<Str>> {
    if key !in fields || fields[key].JNull? then Some(None)
    else if fields[key].JStr? then Some(Some(fields[key].s))
    else None
  }

  /** `cls(**record)`: a key the constructor does not accept, or a missing
      `name` or `image`, raises `TypeError`. A field of the wrong JSON
      type is rejected as well, which the untyped constructor would not
      do. A loaded benchmark is never marked available. */
  function FromJson(j: Json): (r: Result<Benchmark>)
    ensures r.Ok? ==> j.JObject? && j.fields.Keys <= InitFields && "name" in j.fields && "image" in j.fields
    ensures r.Ok? ==> !r.value.available
  {
    if !j.JObject? then Err(TypeError("argument after ** must be a mapping"))
    else
      var f := j.fields;
      if !(f.Keys <= InitFields) then Err(TypeError("unexpected keyword argument"))
      else if "name" !in f || "image" !in f then Err(TypeError("missing required positional argument"))
      else if !f["name"].JStr? || !f["image"].JStr? then Err(TypeError("name and image must be strings"))
      else
        var language := OptionalField(f, "_language");
        var command := OptionalField(f, "language_command");
        if language.None? || command.None? then Err(TypeError("optional fields must be strings"))
        else Ok(New(f["name"].s, f["image"].s, language.value, command.value))
  }

  /** Every record written by `save` as written fails to load: the
      constructor rejects the `_availablility` keyword. */
  lemma LoadOfSaveAsWrittenFails(b: Benchmark)
    ensures FromJson(ToJsonAsWritten(b)).Err?
  {
    assert "_availablility" !in InitFields;
  }

  /** A record written by the intended `save` loads back as the same
      benchmark, not yet known to be available. */
  lemma LoadSaveRoundTrip(b: Benchmark)
    ensures FromJson(ToJson(b)) == Ok(b.(available := false))
  {
    var f := ToJson(b).fields;
    assert f["name"] == JStr(b.name) && f["image"] == JStr(b.image);
    assert OptionalField(f, "language_command") == Some(b.languageCommand);
    assert OptionalField(f, "_language") == Some(b.language);
  }

  // ---------------------------------------------------------------------
  // The registry of benchmarks under the configuration directory

  function BenchmarkDir(configPath: Path): Path {
    configPath + ["benchmarks"]
  }

  /** `register`: store the record under `<config>/benchmarks/<name>.json`,
      keeping an existing record unless `overwrite` is set. */
  function Register(fs: Fs, configPath: Path, b: Benchmark, overwrite: bool): (r: Result<Fs>)
    requires Valid(fs)
    ensures Exists(fs, Store.RecordPath(BenchmarkDir(configPath), b.name)) && !overwrite ==> r == Ok(fs)
    ensures r.Ok? ==> Valid(r.value)
    ensures BenchmarkDir(configPath) in fs.dirs ==>
      (r.Ok? <==> Store.RecordPath(BenchmarkDir(configPath), b.name) !in fs.dirs || !overwrite)
  {
    Store.Register(fs, BenchmarkDir(configPath), b.name, ToJson(b), overwrite)
  }

  /** `load`: `None` when no record exists; otherwise the decoded record or
      the error its decoding raises. */
  function Load(fs: Fs, configPath: Path, name: Str): (r: Result<Option<Benchmark>>)
    ensures !Exists(fs, Store.RecordPath(BenchmarkDir(configPath), name)) ==> r == Ok(None)
    ensures Store.RecordPath(BenchmarkDir(configPath), name) in fs.files ==>
      var j := fs.files[Store.RecordPath(BenchmarkDir(configPath), name)];
      && (r.Ok? <==> FromJson(j).Ok?)
      && (r.Ok? ==> r.value == Some(FromJson(j).value))
    ensures r.Ok? && r.value.Some? ==> !r.value.value.available
  {
    match Store.Lookup(fs, BenchmarkDir(configPath), name)
    case Err(e) => Err(e)
    case Ok(None) => Ok(None)
    case Ok(Some(j)) =>
      match FromJson(j)
      case Err(e) => Err(e)
      case Ok(b) => Ok(Some(b))
  }

  /** A registered benchmark loads back, not yet known to be available. */
  lemma LoadAfterRegister(fs: Fs, configPath: Path, b: Benchmark, overwrite: bool)
    requires Valid(fs)
    requires overwrite || !Exists(fs, Store.RecordPath(BenchmarkDir(configPath), b.name))
    requires Register(fs, configPath, b, overwrite).Ok?
    ensures Load(Register(fs, configPath, b, overwrite).value, configPath, b.name) == Ok(Some(b.(available := false)))
  {
    Store.LookupAfterRegister(fs, BenchmarkDir(configPath), b.name, ToJson(b), overwrite);
    LoadSaveRoundTrip(b);
  }

  /** What `unregister` leaves: the benchmark (cleaned up when asked) and
      the filesystem or the error removing the record raised. */
  datatype Unregistered = Unregistered(state: State, fs: Result<Fs>)

  /** `unregister`: optionally clean up (without deleting the image), then
      remove the record if there is one. */
  function Unregister(fs: Fs, rt: Docker.Runtime, configPath: Path, b: Benchmark, cleanup: bool): (r: Unregistered)
    ensures r.state.rt == rt
    ensures !cleanup ==> r.state.bench == b
    ensures cleanup ==> !r.state.bench.available && SameIdentity(b, r.state.bench)
    ensures !Exists(fs, Store.RecordPath(BenchmarkDir(configPath), b.name)) ==> r.fs == Ok(fs)
    ensures Valid(fs) && r.fs.Ok? ==> Load(r.fs.value, configPath, b.name) == Ok(None)
  {
    var s := if cleanup then Cleanup(b, rt, false) else State(b, rt);
    Unregistered(s, Store.Remove(fs, BenchmarkDir(configPath), b.name))
  }

  /** Unregistering one benchmark leaves what every other name loads. */
  lemma UnregisterKeepsOthers(fs: Fs, rt: Docker.Runtime, configPath: Path, b: Benchmark, cleanup: bool, other: Str)
    requires Valid(fs) && other != b.name
    requires Unregister(fs, rt, configPath, b, cleanup).fs.Ok?
    ensures Load(Unregister(fs, rt, configPath, b, cleanup).fs.value, configPath, other) == Load(fs, configPath, other)
  {
    Store.LookupAfterRemove(fs, BenchmarkDir(configPath), b.name, other);
  }

  /** `Benchmark.load` with the filesystem and configuration fixed. */
  function Loader(fs: Fs, configPath: Path): Str -> Result<Option<Benchmark>> {
    name => Load(fs, configPath, name)
  }

  /** `all_benchmarks`: nothing when the directory is missing; otherwise
      every `*.json` entry of `path` (the configured directory by default)
      is loaded by its stem, always from the configured directory. The
      listing the operating system gives for `path` is `entries`. */
  function AllBenchmarks(fs: Fs, configPath: Path, path: Option<Path>, entries: seq<Str>): (r: Result<seq<Benchmark>>)
    requires Valid(fs) && Listing(fs, path.GetOr(BenchmarkDir(configPath)), entries)
    ensures !Exists(fs, path.GetOr(BenchmarkDir(configPath))) ==> r == Ok([])
    ensures r.Err? <==> exists n :: n in Store.JsonStems(entries) && Load(fs, configPath, n).Err?
    ensures r.Ok? ==> forall b :: b in r.value ==>
      exists n :: n in Store.JsonStems(entries) && Load(fs, configPath, n) == Ok(Some(b))
    ensures r.Ok? ==> forall n :: n in Store.JsonStems(entries) && Load(fs, configPath, n).Ok? && Load(fs, configPath, n).value.Some? ==>
      Load(fs, configPath, n).value.value in r.value
  {
    var dir := path.GetOr(BenchmarkDir(configPath));
    if !Exists(fs, dir) then
      ListingNonEmpty(fs, dir, entries);
      Ok([])
    else
      var stems := Store.JsonStems(entries);
      var r := Store.LoadEach(Loader(fs, configPath), stems);
      Store.LoadEachFails(Loader(fs, configPath), stems);
      if r.Ok? then Store.LoadEachMembers(Loader(fs, configPath), stems); r else r
  }

  /** Every record stored in the configured directory under a non-empty
      name, and loadable, is among `all_benchmarks()`. */
  lemma AllBenchmarksListsEveryRecord(fs: Fs, configPath: Path, entries: seq<Str>, name: Str)
    requires Valid(fs) && Listing(fs, BenchmarkDir(configPath), entries)
    requires name != [] && Store.RecordPath(BenchmarkDir(configPath), name) in fs.files
    ensures AllBenchmarks(fs, configPath, None, entries).Ok? ==>
      Load(fs, configPath, name).Ok? && Load(fs, configPath, name).value.Some? && Load(fs, configPath, name).value.value in AllBenchmarks(fs, configPath, None, entries).value
  {
    if AllBenchmarks(fs, configPath, None, entries).Ok? {
      var stems := Store.JsonStems(entries);
      Store.ListedRecord(fs, BenchmarkDir(configPath), entries, name);
      var k :| 0 <= k < |stems| && stems[k] == name;
      Store.LoadEachFails(Loader(fs, configPath), stems);
      Store.LoadEachMembers(Loader(fs, configPath), stems);
    }
  }
}

=== FILE: cli.dfy ===
/** The `--kaprese-config <dir>` option of the top-level command
    (kaprese/bin/kaprese.py). A process holds both configuration
    singletons: the command line assigns the directory on the older one,
    while the benchmark and engine registries read the newer one. */
module Cli {
  import opened Common
  import opened FileSystem
  import Config
  import LegacyConfig
  import Benchmarks
  import Engines

  /** The two singletons and the filesystem of one process. */
  datatype Process = Process(core: Config.Configure, legacy: Config.Configure, fs: Fs)

  /** The process once both singletons exist, each created from the same
      home directory. The command line imports only the older one
      (kaprese/bin/kaprese.py:7); the newer one is created when a module
      that reads it is first imported, which on the `config` route happens
      after the option was applied (kaprese/bin/kaprese.py:38). The two are
      independent, so that order decides only which of their errors
      reading `docker.json` is raised first. */
  function Start(home: Path, fs: Fs): (r: Result<Process>)
    ensures r.Ok? ==> r.value.core.configPath == home + [".kaprese"] == r.value.legacy.configPath
    ensures r.Ok? ==> r.value.core == r.value.legacy && r.value.fs == fs
  {
    var o := Config.Init(home, fs);
    if o.raised.Some? then Err(o.raised.value) else Ok(Process(o.config, o.config, fs))
  }

  /** The directory the benchmark registry of a process reads. */
  function BenchmarkRoot(p: Process): Path {
    Benchmarks.BenchmarkDir(p.core.configPath)
  }

  /** The directory the engine registry of a process reads. */
  function EngineRoot(p: Process): Path {
    Engines.EngineDir(p.core.configPath)
  }

  /** The option as written: the directory is assigned on the older
      singleton only. */
  function ApplyConfigOptionAsWritten(p: Process, option: Option<Path>): (r: Result<Process>)
    ensures option.None? ==> r == Ok(p)
    ensures r.Ok? ==> r.value.core == p.core && r.value.fs == p.fs
    ensures option.Some? && r.Ok? ==> r.value.legacy.configPath == option.value
  {
    if option.None? then Ok(p)
    else
      var o := LegacyConfig.SetConfigPath(p.legacy, p.fs, option.value);
      if o.raised.Some? then Err(o.raised.value) else Ok(p.(legacy := o.config))
  }

  /** As written, the option does not move the registries: after
      `--kaprese-config d` they still read the directory chosen at start. */
  lemma ConfigOptionIgnoredAsWritten(p: Process, d: Path)
    requires d != p.core.configPath
    requires ApplyConfigOptionAsWritten(p, Some(d)).Ok?
    ensures var q := ApplyConfigOptionAsWritten(p, Some(d)).value;
      BenchmarkRoot(q) != Benchmarks.BenchmarkDir(d) && EngineRoot(q) != Engines.EngineDir(d)
  {
    var q := ApplyConfigOptionAsWritten(p, Some(d)).value;
    assert BenchmarkRoot(q)[..|BenchmarkRoot(q)| - 1] == p.core.configPath;
    assert Benchmarks.BenchmarkDir(d)[..|Benchmarks.BenchmarkDir(d)| - 1] == d;
    assert EngineRoot(q)[..|EngineRoot(q)| - 1] == p.core.configPath;
    assert Engines.EngineDir(d)[..|Engines.EngineDir(d)| - 1] == d;
  }

  /** The option as evidently intended: the directory is assigned on the
      singleton the registries read. */
  function ApplyConfigOption(p: Process, option: Option<Path>): (r: Result<Process>)
    ensures option.None? ==> r == Ok(p)
    ensures r.Ok? ==> r.value.legacy == p.legacy && r.value.fs == p.fs
    ensures option.Some? && r.Ok? ==> r.value.core.configPath == option.value
    ensures option.Some? ==> (r.Ok? <==> Config.SetConfigPath(p.core, p.fs, option.value).raised.None?)
  {
    if option.None? then Ok(p)
    else
      var o := Config.SetConfigPath(p.core, p.fs, option.value);
      if o.raised.Some? then Err(o.raised.value) else Ok(p.(core := o.config))
  }

  /** With the intended option both registries move under the new
      directory. */
  lemma ConfigOptionMovesRegistries(p: Process, d: Path)
    requires ApplyConfigOption(p, Some(d)).Ok?
    ensures var q := ApplyConfigOption(p, Some(d)).value;
      BenchmarkRoot(q) == Benchmarks.BenchmarkDir(d) && EngineRoot(q) == Engines.EngineDir(d)
  {
  }
}

=== FILE: common.dfy ===
/** Shared vocabulary of the model: strings, optional values, and the
    exceptions the Python code raises, made explicit as a `Result`. */
module Common {

  /** Python `str`, as a sequence of Unicode scalar values. */
  type Str = seq<char>

  datatype Option<+T> = None | Some(value: T) {
    function GetOr(default: T): T {
      match this
      case Some(v) => v
      case None => default
    }
  }

  /** The kind of an `OSError` raised by a `pathlib` operation. */
  datatype OSErrorKind = FileNotFound | FileExists | IsADirectory | NotADirectory

  /** A Python exception that escapes the operation it is raised in. */
  datatype Error =
    | TypeError(detail: Str)
    | ValueError(detail: Str)
    | KeyError(key: Str)
    | AttributeError(name: Str)
    | OSError(kind: OSErrorKind)
    | ApiError(detail: Str)  // docker.errors.APIError, or its subclass ImageNotFound

  /** Either the value an operation returns or the exception it raises. */
  datatype Result<+T> = Ok(value: T) | Err(error: Error)

  /** `str(x)` of an `Optional[str]`. */
  function PyStr(o: Option<Str>): Str {
    match o
    case Some(s) => s
    case None => "None"
  }

  /** `str(b)` of a `bool`. */
  function PyBool(b: bool): Str {
    if b then "True" else "False"
  }
}

=== FILE: config.dfy ===
/** The configuration singleton of kaprese/core/config.py: the
    configuration directory and the Docker socket path persisted in
    `<config>/docker.json`. The singleton's state is a `Configure` value
    and each property assignment a function to the next state. */
module Config {
  import opened Common
  import opened FileSystem

  const SockKey: Str := "DOCKER_SOCK_PATH"
  const ConfigPathKey: Str := "CONFIG_PATH"
  const DockerConfigName: Str := "docker.json"

  /** `SETTABLE_KEYS` and `KEYS`. */
  const SettableKeys: seq<Str> := [SockKey]
  const Keys: seq<Str> := [ConfigPathKey] + SettableKeys

  /** The configuration directory and the socket path, a JSON value
      (`JNull` is Python's `None`). The docker configuration path
      `_docker_config_path` is always the directory joined with
      `docker.json`, since every change of the directory re-derives it, so
      it is derived here rather than stored. */
  datatype Configure = Configure(configPath: Path, sockPath: Json)

  function DockerConfigPath(c: Configure): Path {
    c.configPath + [DockerConfigName]
  }

  /** The state after an assignment, the filesystem after it, and the
      exception it raised, if any. */
  datatype Outcome = Outcome(config: Configure, fs: Fs, raised: Option<Error>)

  /** `dict.update` with the decoded `docker.json`, then `.get` of the
      socket key, starting from a dictionary holding `None` for it. A
      mapping contributes its socket entry, if any. Any other document is
      iterated as a sequence of key/value pairs: a list whose items are
      two-element lists, or two-character strings, updates pair by pair;
      anything else raises. */
  function SockFromDocument(doc: Json): (r: Result<Json>)
    ensures doc.JObject? ==> r == Ok(if SockKey in doc.fields then doc.fields[SockKey] else JNull)
    ensures doc.JNull? || doc.JBool? ==> r.Err?
  {
    match doc
    case JObject(fields) => Ok(if SockKey in fields then fields[SockKey] else JNull)
    case JList(items) => SockFromPairs(items, JNull)
    case JStr(s) => if |s| == 0 then Ok(JNull) else Err(ValueError("dictionary update sequence element has length 1; 2 is required"))
    case _ => Err(TypeError("object is not iterable"))
  }

  /** A list item `dict.update` accepts as a key/value pair: a
      two-element list whose key is hashable (not a list or an object), or
      a two-character string. */
  predicate PairItem(item: Json) {
    || (item.JList? && |item.items| == 2 && !item.items[0].JList? && !item.items[0].JObject?)
    || (item.JStr? && |item.s| == 2)
  }

  /** A pair keyed by the socket key. A two-character string never is:
      its key is a single character. */
  predicate SockPair(item: Json) {
    item.JList? && |item.items| == 2 && item.items[0] == JStr(SockKey)
  }

  /** Item `i` is the last pair of `items` keyed by the socket key. */
  predicate LastSockPair(items: seq<Json>, i: int) {
    0 <= i < |items| && SockPair(items[i]) && forall j :: i < j < |items| ==> !SockPair(items[j])
  }

  /** One item of the update: an accepted pair sets the socket value when
      it is keyed by the socket key; any other item raises. */
  function UpdateOne(item: Json, acc: Json): (r: Result<Json>)
    ensures r.Ok? <==> PairItem(item)
    ensures r.Ok? ==> r.value == if SockPair(item) then item.items[1] else acc
  {
    if item.JList? && |item.items| == 2 then
      var key := item.items[0];
      if key.JList? || key.JObject? then Err(TypeError("unhashable type"))
      else Ok(if key == JStr(SockKey) then item.items[1] else acc)
    else if item.JStr? && |item.s| == 2 then Ok(acc)
    else if item.JStr? || item.JList? then Err(ValueError("dictionary update sequence element has the wrong length"))
    else Err(TypeError("cannot convert dictionary update sequence element to a sequence"))
  }

  /** Folding the pairs of a list into the socket value `acc`, as
      `dict.update` does: it raises exactly when some item is not a pair,
      and otherwise the last pair keyed by the socket key wins, or `acc`
      stays when there is none. */
  function SockFromPairs(items: seq<Json>, acc: Json): (r: Result<Json>)
    ensures r.Err? <==> exists i :: 0 <= i < |items| && !PairItem(items[i])
    ensures r.Ok? && (forall i :: 0 <= i < |items| ==> !SockPair(items[i])) ==> r.value == acc
    ensures r.Ok? ==> forall i :: LastSockPair(items, i) ==> r.value == items[i].items[1]
    decreases |items|
  {
    if |items| == 0 then Ok(acc)
    else
      var next := UpdateOne(items[0], acc);
      if next.Err? then next
      else
        var r := SockFromPairs(items[1..], next.value);
        SockFromPairsStep(items, acc, next.value, r);
        r
  }

  /** How the fold over `items` follows from the fold over its tail,
      given that the first item is a pair. */
  lemma SockFromPairsStep(items: seq<Json>, acc: Json, next: Json, r: Result<Json>)
    requires |items| > 0 && PairItem(items[0])
    requires next == if SockPair(items[0]) then items[0].items[1] else acc
    requires r.Err? <==> exists i :: 0 <= i < |items[1..]| && !PairItem(items[1..][i])
    requires r.Ok? && (forall i :: 0 <= i < |items[1..]| ==> !SockPair(items[1..][i])) ==> r.value == next
    requires r.Ok? ==> forall i :: LastSockPair(items[1..], i) ==> r.value == items[1..][i].items[1]
    ensures r.Err? <==> exists i :: 0 <= i < |items| && !PairItem(items[i])
    ensures r.Ok? && (forall i :: 0 <= i < |items| ==> !SockPair(items[i])) ==> r.value == acc
    ensures r.Ok? ==> forall i :: LastSockPair(items, i) ==> r.value == items[i].items[1]
  {
    PairsTailFails(items);
    if r.Ok? {
      forall i | LastSockPair(items, i)
        ensures r.value == items[i].items[1]
      {
        PairsTailLast(items, i);
      }
    }
  }

  /** An item of the tail that is not a pair is one of the whole list,
      and conversely when the head is a pair. */
  lemma PairsTailFails(items: seq<Json>)
    requires |items| > 0 && PairItem(items[0])
    ensures (exists i :: 0 <= i < |items[1..]| && !PairItem(items[1..][i])) <==>
            (exists i :: 0 <= i < |items| && !PairItem(items[i]))
  {
    if exists i :: 0 <= i < |items| && !PairItem(items[i]) {
      var i :| 0 <= i < |items| && !PairItem(items[i]);
      assert items[1..][i - 1] == items[i];
    }
    if exists i :: 0 <= i < |items[1..]| && !PairItem(items[1..][i]) {
      var i :| 0 <= i < |items[1..]| && !PairItem(items[1..][i]);
      assert items[i + 1] == items[1..][i];
    }
  }

  /** The last socket pair of the whole list is the last one of the tail,
      or the head when the tail has none. */
  lemma PairsTailLast(items: seq<Json>, i: int)
    requires LastSockPair(items, i)
    ensures i > 0 ==> LastSockPair(items[1..], i - 1)
    ensures i == 0 ==> forall j :: 0 <= j < |items[1..]| ==> !SockPair(items[1..][j])
  {
    if i > 0 {
      forall j | i - 1 < j < |items[1..]|
        ensures !SockPair(items[1..][j])
      {
        assert items[1..][j] == items[j + 1];
      }
    } else {
      forall j | 0 <= j < |items[1..]|
        ensures !SockPair(items[1..][j])
      {
        assert items[1..][j] == items[j + 1];
      }
    }
  }

  /** Later pairs win: appending a socket-keyed pair to a list of pairs
      makes its value the result. */
  lemma {:induction false} SockFromPairsLastWins(items: seq<Json>, acc: Json, v: Json)
    requires forall i :: 0 <= i < |items| ==> PairItem(items[i])
    ensures SockFromPairs(items + [JList([JStr(SockKey), v])], acc) == Ok(v)
  {
    var more := items + [JList([JStr(SockKey), v])];
    assert more[|items|] == JList([JStr(SockKey), v]);
    assert LastSockPair(more, |items|);
    assert forall i :: 0 <= i < |items| ==> more[i] == items[i];
    assert PairItem(more[|items|]);
  }

  /** `_read_docker_config`: with no file the socket path is `None`;
      otherwise it is the file's entry for the socket key (`None` when it
      has none), and other keys are ignored. */
  function ReadDockerConfig(fs: Fs, path: Path): (r: Result<Json>)
    ensures !Exists(fs, path) ==> r == Ok(JNull)
    ensures path in fs.files && fs.files[path].JObject? ==>
      var fields := fs.files[path].fields;
      r == Ok(if SockKey in fields then fields[SockKey] else JNull)
    ensures path in fs.dirs && path !in fs.files ==> r.Err?
  {
    if !Exists(fs, path) then Ok(JNull)
    else match ReadJson(fs, path)
      case Err(e) => Err(e)
      case Ok(doc) => SockFromDocument(doc)
  }

  /** `_reload`: re-derive the docker configuration path, reset the socket
      path to `None` and read it again. If reading raises, the socket path
      stays `None`. */
  function Reload(configPath: Path, fs: Fs): (r: Outcome)
    ensures r.fs == fs && r.config.configPath == configPath
    ensures r.raised.None? <==> ReadDockerConfig(fs, configPath + [DockerConfigName]).Ok?
    ensures r.raised.None? ==> r.config.sockPath == ReadDockerConfig(fs, configPath + [DockerConfigName]).value
    ensures r.raised.Some? ==> r.config.sockPath == JNull
  {
    match ReadDockerConfig(fs, configPath + [DockerConfigName])
    case Ok(v) => Outcome(Configure(configPath, v), fs, None)
    case Err(e) => Outcome(Configure(configPath, JNull), fs, Some(e))
  }

  /** `__init__`: the directory `~/.kaprese` under the home directory, then
      a reload. */
  function Init(home: Path, fs: Fs): (r: Outcome)
    ensures r.config.configPath == home + [".kaprese"] && r.fs == fs
    ensures !Exists(fs, home + [".kaprese", DockerConfigName]) ==> r == Outcome(Configure(home + [".kaprese"], JNull), fs, None)
  {
    assert home + [".kaprese"] + [DockerConfigName] == home + [".kaprese", DockerConfigName];
    Reload(home + [".kaprese"], fs)
  }

  /** The `CONFIG_PATH` setter: store the new directory and reload. The
      previous socket path is forgotten. */
  function SetConfigPath(c: Configure, fs: Fs, value: Path): (r: Outcome)
    ensures r.config.configPath == value && r.fs == fs
    ensures DockerConfigPath(r.config) == value + [DockerConfigName]
    ensures !Exists(fs, value + [DockerConfigName]) ==> r.config.sockPath == JNull && r.raised.None?
    ensures value + [DockerConfigName] in fs.files && fs.files[value + [DockerConfigName]].JObject? ==>
      var fields := fs.files[value + [DockerConfigName]].fields;
      r.raised.None? && r.config.sockPath == (if SockKey in fields then fields[SockKey] else JNull)
  {
    Reload(value, fs)
  }

  /** The document `_write_docker_config` writes. */
  function DockerConfigDocument(c: Configure): Json {
    JObject(map[SockKey := c.sockPath])
  }

  /** `_config_path_guard`: create the configuration directory (with its
      parents) when it does not exist. */
  function Guard(c: Configure, fs: Fs): (r: Result<Fs>)
    ensures Exists(fs, c.configPath) ==> r == Ok(fs)
    ensures r.Ok? ==> Exists(r.value, c.configPath) && r.value.files == fs.files && fs.dirs <= r.value.dirs
    ensures r.Ok? && Valid(fs) ==> Valid(r.value)
  {
    if Exists(fs, c.configPath) then Ok(fs) else MakeDirs(fs, c.configPath)
  }

  /** The guarded `_write_docker_config`. */
  function WriteDockerConfig(c: Configure, fs: Fs): (r: Result<Fs>)
    ensures r.Ok? ==> r.value.files == fs.files[DockerConfigPath(c) := DockerConfigDocument(c)]
    ensures r.Ok? ==> fs.dirs <= r.value.dirs
    ensures r.Ok? && Valid(fs) ==> Valid(r.value)
    ensures c.configPath in fs.dirs ==> (r.Ok? <==> DockerConfigPath(c) !in fs.dirs)
  {
    match Guard(c, fs)
    case Err(e) => Err(e)
    case Ok(fs1) => WriteText(fs1, DockerConfigPath(c), DockerConfigDocument(c))
  }

  /** The `DOCKER_SOCK_PATH` setter: the value is kept in memory even when
      writing it out raises. */
  function SetSockPath(c: Configure, fs: Fs, value: Str): (r: Outcome)
    ensures r.config == c.(sockPath := JStr(value))
    ensures r.raised.None? ==>
      r.fs.files == fs.files[DockerConfigPath(c) := JObject(map[SockKey := JStr(value)])]
    ensures r.raised.Some? ==> r.fs == fs
    ensures Valid(fs) ==> Valid(r.fs)
  {
    var c1 := c.(sockPath := JStr(value));
    match WriteDockerConfig(c1, fs)
    case Ok(fs1) => Outcome(c1, fs1, None)
    case Err(e) => Outcome(c1, fs, Some(e))
  }

  /** A socket path that was written reads back after a reload from the
      same directory. */
  lemma ReloadAfterSetSockPath(c: Configure, fs: Fs, value: Str)
    requires SetSockPath(c, fs, value).raised.None?
    ensures Reload(c.configPath, SetSockPath(c, fs, value).fs) == Outcome(c.(sockPath := JStr(value)), SetSockPath(c, fs, value).fs, None)
  {
    var fs1 := SetSockPath(c, fs, value).fs;
    var doc := JObject(map[SockKey := JStr(value)]);
    assert fs1.files[DockerConfigPath(c)] == doc;
    assert doc.fields[SockKey] == JStr(value);
  }

  /** With an existing, writable directory the setter never raises. */
  lemma SetSockPathSucceeds(c: Configure, fs: Fs, value: Str)
    requires c.configPath in fs.dirs && DockerConfigPath(c) !in fs.dirs
    ensures SetSockPath(c, fs, value).raised.None?
  {
  }

  /** The guard creates a missing directory, so the setter succeeds when
      nothing stands in the way of creating it. */
  lemma SetSockPathCreatesDirectory(c: Configure, fs: Fs, value: Str)
    requires Valid(fs) && !Exists(fs, c.configPath)
    requires forall i :: 0 <= i < |c.configPath| ==> c.configPath[..i] !in fs.files
    ensures SetSockPath(c, fs, value).raised.None?
    ensures c.configPath in SetSockPath(c, fs, value).fs.dirs
  {
    ChildOfExisting(fs, c.configPath, DockerConfigName);
  }
}

=== FILE: docker.dfy ===
/** The Docker adapter (kaprese/utils/docker.py) over an abstract container
    runtime. The runtime holds the local images, the references a pull
    succeeds for, the build contexts a build succeeds for, and what a
    container prints for given run arguments; every request the adapter
    sends is appended to `calls`, so that contracts can say which requests
    an operation issues. */
module Docker {
  import opened Common
  import Strings

  /** One entry of the `volumes` argument: `{"bind": ..., "mode": ...}`. */
  datatype Mount = Mount(bind: Str, mode: Str)

  /** The keyword arguments given to `client.containers.run` besides the
      image (`stdout` and `stderr` are always true). */
  datatype RunArgs = RunArgs(
    command: Option<Str>,
    workingDir: Option<Str>,
    volumes: Option<map<Str, Mount>>,
    remove: bool,
    detach: bool)

  /** A request sent to the Docker daemon. */
  datatype Call =
    | ImagesGet(name: Str)
    | ImagesPull(repo: Str, tag: Str)
    | ImagesBuild(path: Str, tag: Str, buildArgs: map<Str, Str>, nocache: bool)
    | ImagesRemove(name: Str)
    | ContainersRun(image: Str, args: RunArgs)

  /** What a detached container produced: its log chunks and the
      `StatusCode` reported by `wait()`. */
  datatype Finished = Finished(logs: seq<Str>, statusCode: int)

  datatype Runtime = Runtime(
    images: set<Str>,                      // local images, as "repo:tag"
    registry: set<Str>,                    // references a pull succeeds for
    buildable: set<(Str, map<Str, Str>)>,  // (context, build arguments) a build succeeds for
    outputs: map<(Str, RunArgs), Str>,     // output of a run that exits with 0
    finished: map<(Str, RunArgs), Finished>, // detached runs that start
    calls: seq<Call>)

  datatype Reply<T> = Reply(value: T, rt: Runtime)

  /** `after` differs from `before` at most in its local images and in the
      requests appended to the log. */
  predicate Extends(before: Runtime, after: Runtime) {
    && after.registry == before.registry
    && after.buildable == before.buildable
    && after.outputs == before.outputs
    && after.finished == before.finished
    && before.calls <= after.calls
  }

  /** The requests issued between two states. */
  function NewCalls(before: Runtime, after: Runtime): seq<Call>
    requires Extends(before, after)
  {
    after.calls[|before.calls|..]
  }

  /** Requests issued over two steps are those of the first step followed
      by those of the second. */
  lemma ExtendsTrans(a: Runtime, b: Runtime, c: Runtime)
    requires Extends(a, b) && Extends(b, c)
    ensures Extends(a, c)
    ensures NewCalls(a, c) == NewCalls(a, b) + NewCalls(b, c)
  {
    assert c.calls[..|b.calls|] == b.calls;
    assert c.calls[|a.calls|..] == c.calls[|a.calls|..|b.calls|] + c.calls[|b.calls|..];
  }

  predicate Pulls(calls: seq<Call>) {
    exists i :: 0 <= i < |calls| && calls[i].ImagesPull?
  }

  predicate Builds(calls: seq<Call>) {
    exists i :: 0 <= i < |calls| && calls[i].ImagesBuild?
  }

  predicate Removes(calls: seq<Call>) {
    exists i :: 0 <= i < |calls| && calls[i].ImagesRemove?
  }

  predicate RunsContainer(calls: seq<Call>) {
    exists i :: 0 <= i < |calls| && calls[i].ContainersRun?
  }

  // ---------------------------------------------------------------------
  // Image references

  function Count(s: Str, c: char): nat {
    if |s| == 0 then 0 else (if s[0] == c then 1 else 0) + Count(s[1..], c)
  }

  lemma {:induction false} CountAppend(a: Str, b: Str, c: char)
    ensures Count(a + b, c) == Count(a, c) + Count(b, c)
  {
    if |a| > 0 {
      assert (a + b)[1..] == a[1..] + b;
      CountAppend(a[1..], b, c);
    } else {
      assert a + b == b;
    }
  }

  lemma {:induction false} CountPositive(s: Str, c: char)
    ensures c in s <==> Count(s, c) > 0
  {
    if |s| > 0 {
      CountPositive(s[1..], c);
      assert s == [s[0]] + s[1..];
    }
  }

  /** The last position of `c` in `s`. */
  function LastIndexOf(s: Str, c: char): (i: nat)
    requires c in s
    ensures i < |s| && s[i] == c && c !in s[i + 1..]
  {
    if s[|s| - 1] == c then |s| - 1
    else
      var i := LastIndexOf(s[..|s| - 1], c);
      assert s[i + 1..] == s[..|s| - 1][i + 1..] + [s[|s| - 1]];
      i
  }

  /** The repository/tag split at pull_image, as written:
      `name.split(":")` unpacked into two names, so a reference with two or
      more colons (a registry with a port, say) raises `ValueError`. */
  function SplitTagAsWritten(name: Str): (r: Result<(Str, Str)>)
    ensures r.Err? <==> Count(name, ':') >= 2
  {
    CountPositive(name, ':');
    if ':' !in name then Ok((name, "latest"))
    else if Count(name, ':') == 1 then
      var i := LastIndexOf(name, ':');
      Ok((name[..i], name[i + 1..]))
    else Err(ValueError("too many values to unpack (expected 2)"))
  }

  /** The repository/tag split as evidently intended: a name without a
      colon gets the tag `latest`; otherwise the tag is what follows the
      LAST colon. */
  function SplitTag(name: Str): (r: (Str, Str))
    ensures ':' !in name ==> r == (name, "latest")
    ensures ':' in name ==> r.0 + ":" + r.1 == name && ':' !in r.1
  {
    if ':' !in name then (name, "latest")
    else
      var i := LastIndexOf(name, ':');
      assert name == name[..i] + ":" + name[i + 1..];
      (name[..i], name[i + 1..])
  }

  /** Wherever the split as written returns, it returns the intended
      split. */
  lemma SplitTagAgrees(name: Str)
    requires SplitTagAsWritten(name).Ok?
    ensures SplitTagAsWritten(name).value == SplitTag(name)
  {
  }

  /** A runner tag `image:name` whose image already carries a colon (a
      registry port, or a tag) makes the split as written raise, while the
      intended split recovers the image and the name. */
  lemma SplitRunnerTag(image: Str, name: Str)
    requires ':' in image && ':' !in name
    ensures SplitTagAsWritten(image + ":" + name).Err?
    ensures SplitTag(image + ":" + name) == (image, name)
  {
    CountPositive(image, ':');
    CountAppend(image, ":" + name, ':');
    assert (":" + name)[1..] == name;
    assert Count(":" + name, ':') >= 1;
    assert image + ":" + name == image + (":" + name);
    var r := SplitTag(image + ":" + name);
    var n := image + ":" + name;
    var i := LastIndexOf(n, ':');
    assert n[|image|] == ':';
    assert i == |image|;
    assert n[..|image|] == image;
    assert n[|image| + 1..] == name;
  }

  /** The reference Docker resolves a name to: an untagged name means its
      `latest` tag. */
  function Reference(name: Str): (r: Str)
    ensures ':' in name ==> r == name
    ensures ':' !in name ==> r == name + ":latest"
  {
    var p := SplitTag(name);
    p.0 + ":" + p.1
  }

  // ---------------------------------------------------------------------
  // Images

  /** `image_exists`: `images.get` failing with ImageNotFound or APIError
      is reported as false, never raised. */
  function ImageExists(rt: Runtime, name: Str): (r: Reply<bool>)
    ensures r.value <==> Reference(name) in rt.images
    ensures r.rt == rt.(calls := rt.calls + [ImagesGet(name)])
    ensures Extends(rt, r.rt)
  {
    Reply(Reference(name) in rt.images, rt.(calls := rt.calls + [ImagesGet(name)]))
  }

  /** `pull_image` with the intended split: the result says whether the
      pull succeeded, and a successful pull makes the image local. */
  function PullImage(rt: Runtime, name: Str): (r: Reply<bool>)
    ensures r.value <==> Reference(name) in rt.registry
    ensures r.rt.calls == rt.calls + [ImagesPull(SplitTag(name).0, SplitTag(name).1)]
    ensures r.rt.images == if r.value then rt.images + {Reference(name)} else rt.images
    ensures Extends(rt, r.rt)
  {
    var (repo, tag) := SplitTag(name);
    var ok := Reference(name) in rt.registry;
    Reply(ok, rt.(
      images := if ok then rt.images + {Reference(name)} else rt.images,
      calls := rt.calls + [ImagesPull(repo, tag)]))
  }

  /** `pull_image` as written: the split error escapes before any request
      is sent; otherwise it behaves as the intended pull. */
  function PullImageAsWritten(rt: Runtime, name: Str): (r: Reply<Result<bool>>)
    ensures Count(name, ':') >= 2 ==> r.value.Err? && r.rt == rt
    ensures Count(name, ':') < 2 ==> r == Reply(Ok(PullImage(rt, name).value), PullImage(rt, name).rt)
  {
    match SplitTagAsWritten(name)
    case Err(e) => Reply(Err(e), rt)
    case Ok(_) =>
      var p := PullImage(rt, name);
      Reply(Ok(p.value), p.rt)
  }

  /** `delete_image`: a no-op request-wise when the image is absent. */
  function DeleteImage(rt: Runtime, name: Str): (r: Runtime)
    ensures r.images == rt.images - {Reference(name)}
    ensures r.calls == rt.calls + [ImagesGet(name)]
      + (if Reference(name) in rt.images then [ImagesRemove(name)] else [])
    ensures Extends(rt, r)
  {
    var e := ImageExists(rt, name);
    if !e.value then e.rt
    else e.rt.(images := e.rt.images - {Reference(name)}, calls := e.rt.calls + [ImagesRemove(name)])
  }

  /** `build_image`: missing build arguments are sent as `{}`; whether
      the build succeeds depends on the context and the build arguments
      (which may, for instance, choose the base image); a failing build
      (BuildError or APIError) is reported as false. */
  function BuildImage(rt: Runtime, name: Str, basedir: Str, buildArgs: Option<map<Str, Str>>, nocache: bool): (r: Reply<bool>)
    ensures r.value <==> (basedir, buildArgs.GetOr(map[])) in rt.buildable
    ensures r.rt.calls == rt.calls + [ImagesBuild(basedir, name, buildArgs.GetOr(map[]), nocache)]
    ensures r.rt.images == if r.value then rt.images + {Reference(name)} else rt.images
    ensures Extends(rt, r.rt)
  {
    var args := if buildArgs.None? then map[] else buildArgs.value;
    var ok := (basedir, args) in rt.buildable;
    Reply(ok, rt.(
      images := if ok then rt.images + {Reference(name)} else rt.images,
      calls := rt.calls + [ImagesBuild(basedir, name, args, nocache)]))
  }

  // ---------------------------------------------------------------------
  // Containers

  const BashPrefix: Str := "/bin/bash -c \""

  /** How a command is handed to the container: `/bin/bash -c "<command>"`. */
  function WrapCommand(command: Str): Str {
    BashPrefix + command + "\""
  }

  /** Recovers the command from a wrapped one. */
  function UnwrapCommand(s: Str): Option<Str> {
    if |s| >= |BashPrefix| + 1 && s[..|BashPrefix|] == BashPrefix && s[|s| - 1] == '"'
    then Some(s[|BashPrefix|..|s| - 1])
    else None
  }

  /** Wrapping loses nothing: the command is recovered exactly. */
  lemma UnwrapWrap(command: Str)
    ensures UnwrapCommand(WrapCommand(command)) == Some(command)
  {
    var s := WrapCommand(command);
    assert s[..|BashPrefix|] == BashPrefix;
    assert s[|BashPrefix|..|s| - 1] == command;
  }

  function WrapOption(command: Option<Str>): (r: Option<Str>)
    ensures r.None? <==> command.None?
    ensures command.Some? ==> UnwrapCommand(r.value) == Some(command.value)
  {
    if command.None? then None
    else
      UnwrapWrap(command.value);
      Some(WrapCommand(command.value))
  }

  /** The arguments `run_command` gives `containers.run`: the wrapped
      command if one is given, `working_dir` only if a workdir is given, no
      volumes, the container removed afterwards, not detached. */
  function ProbeArgs(command: Option<Str>, workdir: Option<Str>): (a: RunArgs)
    ensures a.command.None? <==> command.None?
    ensures command.Some? ==> a.command == Some(WrapCommand(command.value))
    ensures a.workingDir == workdir && a.volumes.None?
    ensures a.remove && !a.detach
  {
    RunArgs(WrapOption(command), workdir, None, true, false)
  }

  /** `run_command`: `None` without starting a container when the image is
      absent; otherwise one container is run and its output returned, or
      `None` when it fails (ContainerError). */
  function RunCommand(rt: Runtime, image: Str, command: Option<Str>, workdir: Option<Str>): (r: Reply<Option<Str>>)
    ensures Reference(image) !in rt.images ==>
      r == Reply(None, rt.(calls := rt.calls + [ImagesGet(image)]))
    ensures Reference(image) in rt.images ==>
      && r.rt == rt.(calls := rt.calls + [ImagesGet(image), ContainersRun(image, ProbeArgs(command, workdir))])
      && (r.value.Some? <==> (image, ProbeArgs(command, workdir)) in rt.outputs)
      && (r.value.Some? ==> r.value.value == rt.outputs[(image, ProbeArgs(command, workdir))])
    ensures Extends(rt, r.rt) && r.rt.images == rt.images
  {
    var e := ImageExists(rt, image);
    if !e.value then Reply(None, e.rt)
    else
      var args := ProbeArgs(command, workdir);
      var out := if (image, args) in rt.outputs then Some(rt.outputs[(image, args)]) else None;
      Reply(out, e.rt.(calls := e.rt.calls + [ContainersRun(image, args)]))
  }

  predicate IsAbsolute(p: Str) {
    |p| > 0 && p[0] == '/'
  }

  /** `str(Path(p).absolute())` for the working directory `cwd`. */
  function Absolute(cwd: Str, p: Str): (r: Str)
    requires IsAbsolute(cwd)
    ensures IsAbsolute(r)
    ensures IsAbsolute(p) ==> r == p
  {
    if IsAbsolute(p) then p
    else if p == "" then cwd
    else if cwd[|cwd| - 1] == '/' then cwd + p
    else cwd + "/" + p
  }

  /** An absolute path is its own absolute form. */
  lemma AbsoluteIdempotent(cwd: Str, p: Str)
    requires IsAbsolute(cwd)
    ensures Absolute(cwd, Absolute(cwd, p)) == Absolute(cwd, p)
  {
  }

  /** No later pair of `mount` has the same absolute source as pair `i`. */
  predicate LastWithSource(cwd: Str, mount: seq<(Str, Str)>, i: nat)
    requires IsAbsolute(cwd) && i < |mount|
  {
    forall j :: i < j < |mount| ==> Absolute(cwd, mount[j].0) != Absolute(cwd, mount[i].0)
  }

  /** `_make_mount_dict` over the pairs of the mount dictionary in
      insertion order (a later source overrides an earlier one with the same
      absolute path): every entry binds an absolute path in mode "rw". */
  function MakeMountDict(cwd: Str, mount: seq<(Str, Str)>): (r: map<Str, Mount>)
    requires IsAbsolute(cwd)
    ensures forall k :: k in r ==> r[k].mode == "rw" && IsAbsolute(r[k].bind)
  {
    if |mount| == 0 then map[]
    else
      var last := mount[|mount| - 1];
      MakeMountDict(cwd, mount[..|mount| - 1])[Absolute(cwd, last.0) := Mount(Absolute(cwd, last.1), "rw")]
  }

  /** The absolute sources of the pairs of `mount`. */
  function Sources(cwd: Str, mount: seq<(Str, Str)>): set<Str>
    requires IsAbsolute(cwd)
  {
    set i | 0 <= i < |mount| :: Absolute(cwd, mount[i].0)
  }

  lemma SourcesSnoc(cwd: Str, init: seq<(Str, Str)>, last: (Str, Str))
    requires IsAbsolute(cwd)
    ensures Sources(cwd, init + [last]) == Sources(cwd, init) + {Absolute(cwd, last.0)}
  {
    var m := init + [last];
    forall k | k in Sources(cwd, m) ensures k in Sources(cwd, init) + {Absolute(cwd, last.0)} {
      var i :| 0 <= i < |m| && k == Absolute(cwd, m[i].0);
      if i < |init| {
        assert m[i] == init[i];
      }
    }
    forall k | k in Sources(cwd, init) ensures k in Sources(cwd, m) {
      var i :| 0 <= i < |init| && k == Absolute(cwd, init[i].0);
      assert m[i] == init[i];
    }
    assert m[|init|] == last;
  }

  /** The mount dictionary has exactly one entry per absolute source. */
  lemma {:induction false} MakeMountDictKeys(cwd: Str, mount: seq<(Str, Str)>)
    requires IsAbsolute(cwd)
    ensures MakeMountDict(cwd, mount).Keys == Sources(cwd, mount)
  {
    if |mount| > 0 {
      var init := mount[..|mount| - 1];
      var last := mount[|mount| - 1];
      assert mount == init + [last];
      MakeMountDictKeys(cwd, init);
      SourcesSnoc(cwd, init, last);
    }
  }

  /** The entry of a source binds the absolute destination of the last
      pair with that source. */
  lemma {:induction false} MakeMountDictLastWins(cwd: Str, mount: seq<(Str, Str)>, i: nat)
    requires IsAbsolute(cwd) && i < |mount| && LastWithSource(cwd, mount, i)
    ensures Absolute(cwd, mount[i].0) in MakeMountDict(cwd, mount)
    ensures MakeMountDict(cwd, mount)[Absolute(cwd, mount[i].0)] == Mount(Absolute(cwd, mount[i].1), "rw")
  {
    var init := mount[..|mount| - 1];
    if i < |init| {
      assert init[i] == mount[i];
      assert LastWithSource(cwd, init, i) by {
        forall j | i < j < |init| ensures Absolute(cwd, init[j].0) != Absolute(cwd, init[i].0) {
          assert init[j] == mount[j];
        }
      }
      MakeMountDictLastWins(cwd, init, i);
    }
  }

  /** The state of a `DockerStreamResult` once the `with` block has
      exited: both fields stay `None` when the image is absent, otherwise
      `stream` is the log stream and `return_code` the container's status. */
  datatype StreamResult = StreamResult(stream: Option<seq<Str>>, returnCode: Option<int>)

  /** The arguments `run_command_stream` gives `containers.run`. */
  function StreamArgs(cwd: Str, command: Option<Str>, workdir: Option<Str>, mount: Option<seq<(Str, Str)>>): (a: RunArgs)
    requires IsAbsolute(cwd)
    ensures a.command == WrapOption(command) && a.workingDir == workdir
    ensures a.volumes.None? <==> mount.None?
    ensures mount.Some? ==> a.volumes == Some(MakeMountDict(cwd, mount.value))
    ensures !a.remove && a.detach
  {
    RunArgs(WrapOption(command), workdir,
            if mount.None? then None else Some(MakeMountDict(cwd, mount.value)), false, true)
  }

  /** `run_command_stream`. If the image is absent the yielded result keeps
      `stream` and `return_code` at `None` and no container is started.
      Otherwise one detached container is started; once the caller's block
      is done, `return_code` is its `StatusCode`. A detached run never
      raises `ContainerError`, so a container that cannot be started
      propagates the SDK's `APIError` (or `ImageNotFound`) from
      `containers.run`, before the yield. */
  function RunCommandStream(rt: Runtime, cwd: Str, image: Str, command: Option<Str>,
                            workdir: Option<Str>, mount: Option<seq<(Str, Str)>>): (r: Reply<Result<StreamResult>>)
    requires IsAbsolute(cwd)
    ensures Reference(image) !in rt.images ==>
      r == Reply(Ok(StreamResult(None, None)), rt.(calls := rt.calls + [ImagesGet(image)]))
    ensures Reference(image) in rt.images ==>
      && r.rt.calls == rt.calls + [ImagesGet(image), ContainersRun(image, StreamArgs(cwd, command, workdir, mount))]
      && (r.value.Ok? <==> (image, StreamArgs(cwd, command, workdir, mount)) in rt.finished)
      && (r.value.Ok? ==> r.value.value == StreamResult(
            Some(rt.finished[(image, StreamArgs(cwd, command, workdir, mount))].logs),
            Some(rt.finished[(image, StreamArgs(cwd, command, workdir, mount))].statusCode)))
    ensures Extends(rt, r.rt) && r.rt.images == rt.images
  {
    var e := ImageExists(rt, image);
    if !e.value then Reply(Ok(StreamResult(None, None)), e.rt)
    else
      var args := StreamArgs(cwd, command, workdir, mount);
      var rt1 := e.rt.(calls := e.rt.calls + [ContainersRun(image, args)]);
      if (image, args) in rt.finished then
        var f := rt.finished[(image, args)];
        Reply(Ok(StreamResult(Some(f.logs), Some(f.statusCode))), rt1)
      else Reply(Err(ApiError("container could not be started")), rt1)
  }

  // ---------------------------------------------------------------------
  // Command lists

  const Separator: Str := "; "

  /** The command `run_commands_stream` runs: the list joined with "; ",
      or no command when the list is `None`. */
  function JoinCommands(commands: Option<seq<Str>>): (r: Option<Str>)
    ensures r.None? <==> commands.None?
  {
    if commands.None? then None else Some(Strings.Join(commands.value, Separator))
  }

  predicate NoSeparator(c: Str) {
    forall i :: 0 <= i < |c| - 1 ==> !(c[i] == ';' && c[i + 1] == ' ')
  }

  /** Splits a command line at every "; ", left to right. */
  function SplitCommands(s: Str): (r: seq<Str>)
    ensures |r| > 0
    decreases |s|
  {
    if |s| < 2 then [s]
    else if s[0] == ';' && s[1] == ' ' then [[]] + SplitCommands(s[2..])
    else
      var rest := SplitCommands(s[1..]);
      [[s[0]] + rest[0]] + rest[1..]
  }

  lemma {:induction false} SplitSingle(c: Str)
    requires NoSeparator(c)
    ensures SplitCommands(c) == [c]
    decreases |c|
  {
    if |c| >= 2 {
      SplitSingle(c[1..]);
      assert [c[0]] + c[1..] == c;
    }
  }

  lemma {:induction false} SplitFirst(c: Str, rest: Str)
    requires NoSeparator(c)
    ensures SplitCommands(c + Separator + rest) == [c] + SplitCommands(rest)
    decreases |c|
  {
    var s := c + Separator + rest;
    if |c| == 0 {
      assert s[2..] == rest;
    } else {
      assert s[1..] == c[1..] + Separator + rest;
      SplitFirst(c[1..], rest);
      assert !(s[0] == ';' && s[1] == ' ') by {
        if |c| >= 2 { assert s[1] == c[1]; } else { assert s[1] == ';'; }
      }
      assert [c[0]] + c[1..] == c;
    }
  }

  /** Joining commands that contain no "; " can be undone: splitting the
      joined command line gives the list back. */
  lemma {:induction false} SplitJoin(commands: seq<Str>)
    requires |commands| > 0
    requires forall i :: 0 <= i < |commands| ==> NoSeparator(commands[i])
    ensures SplitCommands(JoinCommands(Some(commands)).value) == commands
  {
    if |commands| == 1 {
      SplitSingle(commands[0]);
    } else {
      SplitJoin(commands[1..]);
      SplitFirst(commands[0], Strings.Join(commands[1..], Separator));
      assert commands == [commands[0]] + commands[1..];
    }
  }

  /** `run_commands_stream`: `run_command_stream` on the joined command. */
  function RunCommandsStream(rt: Runtime, cwd: Str, image: Str, commands: Option<seq<Str>>,
                             workdir: Option<Str>, mount: Option<seq<(Str, Str)>>): (r: Reply<Result<StreamResult>>)
    requires IsAbsolute(cwd)
    ensures Reference(image) in rt.images ==>
      && |r.rt.calls| == |rt.calls| + 2
      && r.rt.calls[|rt.calls| + 1].ContainersRun?
      && (commands.None? ==> r.rt.calls[|rt.calls| + 1].args.command.None?)
      && (commands.Some? ==>
            r.rt.calls[|rt.calls| + 1].args.command == Some(WrapCommand(Strings.Join(commands.value, Separator))))
    ensures Reference(image) !in rt.images ==> r.value == Ok(StreamResult(None, None))
  {
    RunCommandStream(rt, cwd, image, JoinCommands(commands), workdir, mount)
  }
}

=== FILE: engine.dfy ===
/** The `Engine` entity of kaprese/core/engine.py: a repair tool packaged
    as a container image, persisted as `<config>/engines/<name>.json`. */
module Engines {
  import opened Common
  import opened FileSystem
  import Store

  /** The dataclass fields, plus the build-argument templates the runner
      reads (`build_args`), which the record as written lacks. */
  datatype Engine = Engine(
    name: Str,
    supportedLanguages: seq<Str>,
    supportedOs: seq<Str>,
    image: Str,
    location: Option<Str>,
    buildArgs: map<Str, Str>)

  /** The keyword arguments the constructor accepts. */
  const EngineFields: set<Str> :=
    {"name", "supported_languages", "supported_os", "image", "location", "build_args"}

  const NamePrefix: Str := "kaprese-"
  const ImagePrefix: Str := "kaprese-engine-"

  /** The text of `uuid.uuid4().hex`: 32 lower-case hexadecimal digits. */
  predicate IsUuidHex(hex: Str) {
    |hex| == 32 && forall i :: 0 <= i < |hex| ==> hex[i] in "0123456789abcdef"
  }

  /** The default name: `kaprese-` and the first seven digits of a fresh
      UUID, supplied as `hex` since randomness is outside the model. */
  function DefaultName(hex: Str): (r: Str)
    requires IsUuidHex(hex)
    ensures |r| == |NamePrefix| + 7 && r[..|NamePrefix|] == NamePrefix
    ensures forall i :: |NamePrefix| <= i < |r| ==> r[i] == hex[i - |NamePrefix|]
  {
    NamePrefix + hex[..7]
  }

  /** `__post_init__`: an empty image name defaults to
      `kaprese-engine-<name>`. */
  function PostInit(e: Engine): (r: Engine)
    ensures |r.image| > 0
    ensures r.(image := e.image) == e
    ensures |e.image| > 0 ==> r == e
    ensures |e.image| == 0 ==> ImagePrefix <= r.image && r.image[|ImagePrefix|..] == e.name
  {
    if |e.image| == 0 then e.(image := ImagePrefix + e.name) else e
  }

  /** Post-initialisation is idempotent. */
  lemma PostInitIdempotent(e: Engine)
    ensures PostInit(PostInit(e)) == PostInit(e)
  {
  }

  /** The constructor: omitted arguments take their defaults and then
      `__post_init__` runs. */
  function New(name: Option<Str>, supportedLanguages: seq<Str>, supportedOs: seq<Str>,
               image: Str, location: Option<Str>, buildArgs: map<Str, Str>, hex: Str): (e: Engine)
    requires IsUuidHex(hex)
    ensures name.Some? ==> e.name == name.value
    ensures name.None? ==> NamePrefix <= e.name
    ensures |e.image| > 0 && (|image| > 0 ==> e.image == image)
    ensures e.supportedLanguages == supportedLanguages && e.supportedOs == supportedOs
    ensures e.location == location && e.buildArgs == buildArgs
  {
    PostInit(Engine(if name.Some? then name.value else DefaultName(hex),
                    supportedLanguages, supportedOs, image, location, buildArgs))
  }

  // ---------------------------------------------------------------------
  // Persisted form

  function StrListJson(items: seq<Str>): (j: Json)
    ensures j.JList? && |j.items| == |items|
  {
    JList(seq(|items|, i requires 0 <= i < |items| => JStr(items[i])))
  }

  /** A JSON list of strings, or `None` for any other value. */
  function StrList(j: Json): (r: Option<seq<Str>>)
    ensures r.Some? ==> j.JList? && |r.value| == |j.items|
    ensures r.Some? ==> forall i :: 0 <= i < |j.items| ==> j.items[i] == JStr(r.value[i])
  {
    if j.JList? && forall i :: 0 <= i < |j.items| ==> j.items[i].JStr?
    then Some(seq(|j.items|, i requires 0 <= i < |j.items| => j.items[i].s))
    else None
  }

  lemma StrListRoundTrip(items: seq<Str>)
    ensures StrList(StrListJson(items)) == Some(items)
  {
    var j := StrListJson(items);
    assert forall i :: 0 <= i < |j.items| ==> j.items[i] == JStr(items[i]);
    assert StrList(j).value == items;
  }

  function StrMapJson(m: map<Str, Str>): Json {
    JObject(map k | k in m :: JStr(m[k]))
  }

  /** A JSON object whose values are strings, or `None`. */
  function StrMap(j: Json): (r: Option<map<Str, Str>>)
    ensures r.Some? ==> j.JObject? && r.value.Keys == j.fields.Keys
    ensures r.Some? ==> forall k :: k in r.value ==> j.fields[k] == JStr(r.value[k])
  {
    if j.JObject? && forall k :: k in j.fields ==> j.fields[k].JStr?
    then Some(map k | k in j.fields :: j.fields[k].s)
    else None
  }

  lemma StrMapRoundTrip(m: map<Str, Str>)
    ensures StrMap(StrMapJson(m)) == Some(m)
  {
    var j := StrMapJson(m);
    assert forall k :: k in j.fields ==> j.fields[k] == JStr(m[k]);
    assert StrMap(j).value == m;
  }

  /** `dump` (`dataclasses.asdict`): every field under its own name. */
  function Dump(e: Engine): (j: Json)
    ensures j.JObject? && j.fields.Keys == EngineFields
  {
    JObject(map[
      "name" := JStr(e.name),
      "supported_languages" := StrListJson(e.supportedLanguages),
      "supported_os" := StrListJson(e.supportedOs),
      "image" := JStr(e.image),
      "location" := if e.location.Some? then JStr(e.location.value) else JNull,
      "build_args" := StrMapJson(e.buildArgs)])
  }

  /** `cls(**data)`: unknown keys raise `TypeError`, absent keys take the
      constructor's defaults (a fresh name from `hex`), and
      `__post_init__` runs. A field of the wrong JSON type is rejected as
      well, which the untyped constructor would not do. */
  function FromJson(j: Json, hex: Str): (r: Result<Engine>)
    requires IsUuidHex(hex)
    ensures r.Ok? ==> j.JObject? && j.fields.Keys <= EngineFields
    ensures r.Ok? ==> |r.value.image| > 0
    ensures r.Ok? && "name" in j.fields ==> j.fields["name"] == JStr(r.value.name)
  {
    if !j.JObject? then Err(TypeError("argument after ** must be a mapping"))
    else
      var f := j.fields;
      if !(f.Keys <= EngineFields) then Err(TypeError("unexpected keyword argument"))
      else
        var name := if "name" !in f then Some(DefaultName(hex)) else if f["name"].JStr? then Some(f["name"].s) else None;
        var languages := if "supported_languages" in f then StrList(f["supported_languages"]) else Some([]);
        var os := if "supported_os" in f then StrList(f["supported_os"]) else Some([]);
        var image := if "image" !in f then Some("") else if f["image"].JStr? then Some(f["image"].s) else None;
        var location := if "location" !in f || f["location"].JNull? then Some(None)
                        else if f["location"].JStr? then Some(Some(f["location"].s)) else None;
        var buildArgs := if "build_args" in f then StrMap(f["build_args"]) else Some(map[]);
        if name.None? || languages.None? || os.None? || image.None? || location.None? || buildArgs.None?
        then Err(TypeError("field of the wrong type"))
        else Ok(PostInit(Engine(name.value, languages.value, os.value, image.value, location.value, buildArgs.value)))
  }

  /** A dumped engine loads back as itself once post-initialised; an
      engine that went through the constructor loads back unchanged. */
  lemma LoadDumpRoundTrip(e: Engine, hex: Str)
    requires IsUuidHex(hex)
    ensures FromJson(Dump(e), hex) == Ok(PostInit(e))
    ensures FromJson(Dump(PostInit(e)), hex) == Ok(PostInit(e))
  {
    StrListRoundTrip(e.supportedLanguages);
    StrListRoundTrip(e.supportedOs);
    StrMapRoundTrip(e.buildArgs);
    var f := Dump(e).fields;
    assert f["supported_languages"] == StrListJson(e.supportedLanguages);
    assert f["supported_os"] == StrListJson(e.supportedOs);
    assert f["build_args"] == StrMapJson(e.buildArgs);
    var p := PostInit(e);
    StrListRoundTrip(p.supportedLanguages);
    StrListRoundTrip(p.supportedOs);
    StrMapRoundTrip(p.buildArgs);
    PostInitIdempotent(e);
  }

  // ---------------------------------------------------------------------
  // The registry of engines under the configuration directory

  function EngineDir(configPath: Path): Path {
    configPath + ["engines"]
  }

  /** `register`: store the dump under `<config>/engines/<name>.json`,
      keeping an existing record unless `overwrite` is set. */
  function Register(fs: Fs, configPath: Path, e: Engine, overwrite: bool): (r: Result<Fs>)
    requires Valid(fs)
    ensures Exists(fs, Store.RecordPath(EngineDir(configPath), e.name)) && !overwrite ==> r == Ok(fs)
    ensures r.Ok? ==> Valid(r.value)
    ensures EngineDir(configPath) in fs.dirs ==>
      (r.Ok? <==> Store.RecordPath(EngineDir(configPath), e.name) !in fs.dirs || !overwrite)
  {
    Store.Register(fs, EngineDir(configPath), e.name, Dump(e), overwrite)
  }

  /** `load`: `None` when no record exists; otherwise the decoded record or
      the error its decoding raises. */
  function Load(fs: Fs, configPath: Path, name: Str, hex: Str): (r: Result<Option<Engine>>)
    requires IsUuidHex(hex)
    ensures !Exists(fs, Store.RecordPath(EngineDir(configPath), name)) ==> r == Ok(None)
    ensures Store.RecordPath(EngineDir(configPath), name) in fs.files ==>
      var j := fs.files[Store.RecordPath(EngineDir(configPath), name)];
      && (r.Ok? <==> FromJson(j, hex).Ok?)
      && (r.Ok? ==> r.value == Some(FromJson(j, hex).value))
  {
    match Store.Lookup(fs, EngineDir(configPath), name)
    case Err(e) => Err(e)
    case Ok(None) => Ok(None)
    case Ok(Some(j)) =>
      match FromJson(j, hex)
      case Err(e) => Err(e)
      case Ok(x) => Ok(Some(x))
  }

  /** A registered engine loads back as registered (post-initialised). */
  lemma LoadAfterRegister(fs: Fs, configPath: Path, e: Engine, overwrite: bool, hex: Str)
    requires Valid(fs) && IsUuidHex(hex)
    requires overwrite || !Exists(fs, Store.RecordPath(EngineDir(configPath), e.name))
    requires Register(fs, configPath, e, overwrite).Ok?
    ensures Load(Register(fs, configPath, e, overwrite).value, configPath, e.name, hex) == Ok(Some(PostInit(e)))
  {
    Store.LookupAfterRegister(fs, EngineDir(configPath), e.name, Dump(e), overwrite);
    LoadDumpRoundTrip(e, hex);
  }

  /** `Engine.load` with the filesystem, configuration and fresh UUID
      fixed. */
  function Loader(fs: Fs, configPath: Path, hex: Str): Str -> Result<Option<Engine>>
    requires IsUuidHex(hex)
  {
    name => Load(fs, configPath, name, hex)
  }

  /** `all_engines`: every `*.json` entry of `path` (the configured
      directory by default) is loaded by its stem, always from the
      configured directory. Unlike `all_benchmarks` there is no existence
      check; a missing directory lists nothing. */
  function AllEngines(fs: Fs, configPath: Path, path: Option<Path>, entries: seq<Str>, hex: Str): (r: Result<seq<Engine>>)
    requires Valid(fs) && Listing(fs, path.GetOr(EngineDir(configPath)), entries) && IsUuidHex(hex)
    ensures !Exists(fs, path.GetOr(EngineDir(configPath))) ==> r == Ok([])
    ensures r.Err? <==> exists n :: n in Store.JsonStems(entries) && Load(fs, configPath, n, hex).Err?
    ensures r.Ok? ==> forall e :: e in r.value ==>
      exists n :: n in Store.JsonStems(entries) && Load(fs, configPath, n, hex) == Ok(Some(e))
    ensures r.Ok? ==> forall n :: n in Store.JsonStems(entries) && Load(fs, configPath, n, hex).Ok? && Load(fs, configPath, n, hex).value.Some? ==>
      Load(fs, configPath, n, hex).value.value in r.value
    ensures r.Ok? ==> forall e :: e in r.value ==> |e.image| > 0
  {
    var dir := path.GetOr(EngineDir(configPath));
    ListingNonEmpty(fs, dir, entries);
    var stems := Store.JsonStems(entries);
    var r := Store.LoadEach(Loader(fs, configPath, hex), stems);
    Store.LoadEachFails(Loader(fs, configPath, hex), stems);
    if r.Ok? then Store.LoadEachMembers(Loader(fs, configPath, hex), stems); r else r
  }

  /** Every record stored in the configured directory under a non-empty
      name, and loadable, is among `all_engines()`. */
  lemma AllEnginesListsEveryRecord(fs: Fs, configPath: Path, entries: seq<Str>, name: Str, hex: Str)
    requires Valid(fs) && Listing(fs, EngineDir(configPath), entries) && IsUuidHex(hex)
    requires name != [] && Store.RecordPath(EngineDir(configPath), name) in fs.files
    ensures AllEngines(fs, configPath, None, entries, hex).Ok? ==>
      Load(fs, configPath, name, hex).Ok? && Load(fs, configPath, name, hex).value.Some? && Load(fs, configPath, name, hex).value.value in AllEngines(fs, configPath, None, entries, hex).value
  {
    if AllEngines(fs, configPath, None, entries, hex).Ok? {
      var stems := Store.JsonStems(entries);
      Store.ListedRecord(fs, EngineDir(configPath), entries, name);
      var k :| 0 <= k < |stems| && stems[k] == name;
      Store.LoadEachFails(Loader(fs, configPath, hex), stems);
      Store.LoadEachMembers(Loader(fs, configPath, hex), stems);
    }
  }
}

=== FILE: eval.dfy ===
/** The evaluation counters of kaprese/core/eval.py. The counter updates
    are Python properties with side effects; here each is a function to
    the next value. */
module Evaluation {
  import opened Common

  /** A tool's tally: how many outputs were seen and how many were
      correct. */
  datatype Eval = Eval(tool: Str, totalCount: nat, correctCount: nat)

  /** Every correct output is also counted in the total. */
  predicate Valid(e: Eval) {
    e.correctCount <= e.totalCount
  }

  function NewEval(tool: Str): (r: Eval)
    ensures r.tool == tool && r.totalCount == 0 && r.correctCount == 0
    ensures Valid(r)
  {
    Eval(tool, 0, 0)
  }

  /** `increase_total_count`: one more output, not correct. */
  function IncreaseTotalCount(e: Eval): (r: Eval)
    ensures r.tool == e.tool && r.totalCount == e.totalCount + 1 && r.correctCount == e.correctCount
    ensures Valid(e) ==> Valid(r)
  {
    e.(totalCount := e.totalCount + 1)
  }

  /** `increase_correct_count`: one more correct output, which also counts
      towards the total. */
  function IncreaseCorrectCount(e: Eval): (r: Eval)
    ensures r.tool == e.tool && r.totalCount == e.totalCount + 1 && r.correctCount == e.correctCount + 1
    ensures Valid(e) ==> Valid(r)
  {
    IncreaseTotalCount(e.(correctCount := e.correctCount + 1))
  }

  /** `accuracy`: the share of correct outputs, 0 before any output. */
  function Accuracy(e: Eval): (r: real)
    ensures e.totalCount == 0 ==> r == 0.0
    ensures e.totalCount > 0 ==> r * e.totalCount as real == e.correctCount as real
    ensures Valid(e) ==> 0.0 <= r <= 1.0
  {
    if e.totalCount > 0 then e.correctCount as real / e.totalCount as real else 0.0
  }

  /** Recording one output. */
  function Record(e: Eval, correct: bool): Eval {
    if correct then IncreaseCorrectCount(e) else IncreaseTotalCount(e)
  }

  /** The tally of a run of outputs, recorded in order from a fresh
      counter: it counts every output once and the correct ones among
      them, whatever the order, so it is always valid. */
  function Tally(tool: Str, outcomes: seq<bool>): (r: Eval)
    ensures r.tool == tool
    ensures r.totalCount == |outcomes|
    ensures r.correctCount == multiset(outcomes)[true]
    ensures Valid(r)
    decreases |outcomes|
  {
    if |outcomes| == 0 then NewEval(tool)
    else
      var init := outcomes[..|outcomes| - 1];
      var last := outcomes[|outcomes| - 1];
      assert outcomes == init + [last];
      assert multiset(outcomes) == multiset(init) + multiset{last};
      Record(Tally(tool, init), last)
  }
}

/** `eval_cafe` of kaprese/eval/cafe.py: every directory under the cafe
    output directory is one benchmark, correct when some `fixed.ml` lies
    below it. */
module Cafe {
  import opened Common
  import opened FileSystem
  import Evaluation

  const Tool: Str := "cafe"
  const FixedName: Str := "fixed.ml"

  /** `q` lies strictly below `d` and is named `fixed.ml`: a match of
      `d.rglob("fixed.ml")`, which matches files and directories alike. */
  predicate FixedBelow(d: Path, q: Path) {
    |d| < |q| && d <= q && q[|q| - 1] == FixedName
  }

  /** `list(d.rglob("fixed.ml"))` is non-empty. */
  predicate HasFixed(fs: Fs, d: Path) {
    (exists q :: q in fs.dirs && FixedBelow(d, q)) || (exists q :: q in fs.files && FixedBelow(d, q))
  }

  /** The benchmark directories among the entries of the tool directory. */
  function BenchmarkDirs(fs: Fs, toolDir: Path, entries: seq<Str>): set<Str> {
    set n | n in entries && toolDir + [n] in fs.dirs
  }

  /** The benchmark directories with a `fixed.ml` below them. */
  function Fixed(fs: Fs, toolDir: Path, entries: seq<Str>): set<Str> {
    set n | n in entries && toolDir + [n] in fs.dirs && HasFixed(fs, toolDir + [n])
  }

  /** One more entry adds one benchmark directory when it is a directory,
      and one fixed directory when a `fixed.ml` also lies below it. */
  lemma EntryStep(fs: Fs, toolDir: Path, done: seq<Str>, name: Str)
    requires name !in done
    ensures |BenchmarkDirs(fs, toolDir, done + [name])| ==
      |BenchmarkDirs(fs, toolDir, done)| + (if toolDir + [name] in fs.dirs then 1 else 0)
    ensures |Fixed(fs, toolDir, done + [name])| ==
      |Fixed(fs, toolDir, done)| + (if toolDir + [name] in fs.dirs && HasFixed(fs, toolDir + [name]) then 1 else 0)
  {
    var child := toolDir + [name];
    if child in fs.dirs {
      assert BenchmarkDirs(fs, toolDir, done + [name]) == BenchmarkDirs(fs, toolDir, done) + {name};
    } else {
      assert BenchmarkDirs(fs, toolDir, done + [name]) == BenchmarkDirs(fs, toolDir, done);
    }
    if child in fs.dirs && HasFixed(fs, child) {
      assert Fixed(fs, toolDir, done + [name]) == Fixed(fs, toolDir, done) + {name};
    } else {
      assert Fixed(fs, toolDir, done + [name]) == Fixed(fs, toolDir, done);
    }
  }

  /** `eval_cafe` given the tool directory (the working directory joined
      with the output directory and `cafe`) and its listing. Listing a
      missing directory raises. Files among the entries are ignored; each
      directory counts once towards the total, and towards the correct
      count exactly when a `fixed.ml` lies below it. */
  method EvalCafe(fs: Fs, toolDir: Path, entries: seq<Str>) returns (r: Result<Evaluation.Eval>)
    requires Listing(fs, toolDir, entries)
    ensures r.Err? <==> toolDir !in fs.dirs
    ensures r.Ok? ==> r.value.tool == Tool && Evaluation.Valid(r.value)
    ensures r.Ok? ==> r.value.totalCount == |BenchmarkDirs(fs, toolDir, entries)|
    ensures r.Ok? ==> r.value.correctCount == |Fixed(fs, toolDir, entries)|
  {
    if toolDir !in fs.dirs {
      return Err(OSError(if toolDir in fs.files then NotADirectory else FileNotFound));
    }
    var e := Evaluation.NewEval(Tool);
    var k := 0;
    while k < |entries|
      invariant 0 <= k <= |entries|
      invariant e.tool == Tool && Evaluation.Valid(e)
      invariant e.totalCount == |BenchmarkDirs(fs, toolDir, entries[..k])|
      invariant e.correctCount == |Fixed(fs, toolDir, entries[..k])|
    {
      var name := entries[k];
      assert entries[..k + 1] == entries[..k] + [name];
      assert name !in entries[..k] by {
        forall i | 0 <= i < k ensures entries[..k][i] != name {
          assert entries[..k][i] == entries[i];
        }
      }
      EntryStep(fs, toolDir, entries[..k], name);
      if toolDir + [name] in fs.dirs {
        if HasFixed(fs, toolDir + [name]) {
          e := Evaluation.IncreaseCorrectCount(e);
        } else {
          e := Evaluation.IncreaseTotalCount(e);
        }
      }
      k := k + 1;
    }
    assert entries[..k] == entries;
    return Ok(e);
  }
}

=== FILE: filesystem.dfy ===
/** The filesystem as the core sees it through `pathlib`: a set of
    directories and a map from file path to the JSON document stored there.
    JSON text is abstracted to its decoded value, so parse errors of
    `json.loads` do not arise. */
module FileSystem {
  import opened Common

  /** A path as its sequence of components; `p / "x"` is `p + ["x"]`. */
  type Path = seq<Str>

  /** A decoded JSON document (numbers are never stored by the core). */
  datatype Json =
    | JNull
    | JBool(b: bool)
    | JStr(s: Str)
    | JList(items: seq<Json>)
    | JObject(fields: map<Str, Json>)

  datatype Fs = Fs(dirs: set<Path>, files: map<Path, Json>)

  function Parent(p: Path): Path
    requires |p| > 0
  {
    p[..|p| - 1]
  }

  /** Every proper prefix of an existing path is a directory, and nothing
      is both a file and a directory: what a real filesystem guarantees. */
  ghost predicate Valid(fs: Fs) {
    && fs.dirs !! fs.files.Keys
    && (forall p :: p in fs.files ==> |p| > 0 && Parent(p) in fs.dirs)
    && (forall p :: p in fs.dirs && |p| > 0 ==> Parent(p) in fs.dirs)
  }

  /** `Path.exists()`: true for files and directories alike. */
  predicate Exists(fs: Fs, p: Path) {
    p in fs.dirs || p in fs.files
  }

  /** `Path.mkdir(parents=True)` (without `exist_ok`). */
  function MakeDirs(fs: Fs, p: Path): (r: Result<Fs>)
    ensures r.Ok? <==> !Exists(fs, p) && forall i :: 0 <= i < |p| ==> p[..i] !in fs.files
    ensures r.Ok? ==> r.value.files == fs.files && p in r.value.dirs && fs.dirs <= r.value.dirs
    ensures r.Ok? ==> forall q :: q in r.value.dirs && q !in fs.dirs ==> q <= p
    ensures r.Ok? && Valid(fs) ==> Valid(r.value)
  {
    if Exists(fs, p) then Err(OSError(FileExists))
    else if exists i :: 0 <= i < |p| && p[..i] in fs.files then Err(OSError(NotADirectory))
    else
      var added := set i | 0 <= i <= |p| :: p[..i];
      assert p == p[..|p|];
      var r := fs.(dirs := fs.dirs + added);
      assert Valid(fs) ==> Valid(r) by {
        if Valid(fs) {
          forall q | q in r.dirs && |q| > 0 ensures Parent(q) in r.dirs {
            if q in added {
              var i :| 0 <= i <= |p| && q == p[..i];
              assert Parent(q) == p[..i - 1];
            }
          }
        }
      }
      Ok(r)
  }

  /** `Path.write_text`: the parent must be a directory and the path must
      not be one. */
  function WriteText(fs: Fs, p: Path, content: Json): (r: Result<Fs>)
    ensures r.Ok? <==> |p| > 0 && p !in fs.dirs && Parent(p) in fs.dirs
    ensures r.Ok? ==> r.value == fs.(files := fs.files[p := content])
    ensures r.Ok? && Valid(fs) ==> Valid(r.value)
  {
    if |p| == 0 || p in fs.dirs then Err(OSError(IsADirectory))
    else if Parent(p) !in fs.dirs then
      Err(OSError(if Parent(p) in fs.files then NotADirectory else FileNotFound))
    else Ok(fs.(files := fs.files[p := content]))
  }

  /** `Path.read_text` followed by `json.loads`. */
  function ReadJson(fs: Fs, p: Path): (r: Result<Json>)
    ensures r.Ok? <==> p in fs.files
    ensures r.Ok? ==> r.value == fs.files[p]
  {
    if p in fs.files then Ok(fs.files[p])
    else if p in fs.dirs then Err(OSError(IsADirectory))
    else Err(OSError(FileNotFound))
  }

  /** `Path.unlink()`. */
  function Unlink(fs: Fs, p: Path): (r: Result<Fs>)
    ensures r.Ok? <==> p in fs.files
    ensures r.Ok? ==> r.value.dirs == fs.dirs && r.value.files == fs.files - {p}
    ensures r.Ok? && Valid(fs) ==> Valid(r.value)
  {
    if p in fs.files then Ok(fs.(files := fs.files - {p}))
    else if p in fs.dirs then Err(OSError(IsADirectory))
    else Err(OSError(FileNotFound))
  }

  /** `entries` is the listing the operating system returns for directory
      `d`: each existing child named exactly once, in an order of its
      choosing. An operation that iterates a directory takes the listing as
      a parameter. */
  ghost predicate Listing(fs: Fs, d: Path, entries: seq<Str>) {
    && (forall i :: 0 <= i < |entries| ==> Exists(fs, d + [entries[i]]))
    && (forall n :: Exists(fs, d + [n]) ==> n in entries)
    && (forall i, j :: 0 <= i < j < |entries| ==> entries[i] != entries[j])
  }

  /** Only an existing directory has entries. */
  lemma ListingNonEmpty(fs: Fs, d: Path, entries: seq<Str>)
    requires Valid(fs) && Listing(fs, d, entries)
    ensures |entries| > 0 ==> d in fs.dirs
  {
    if |entries| > 0 {
      assert Parent(d + [entries[0]]) == d;
    }
  }

  /** A child exists only under an existing directory. */
  lemma ChildOfExisting(fs: Fs, d: Path, n: Str)
    requires Valid(fs)
    ensures Exists(fs, d + [n]) ==> d in fs.dirs
  {
    assert Parent(d + [n]) == d;
  }
}

=== FILE: legacy_config.dfy ===
/** The older configuration singleton of kaprese/config/__init__.py, which
    the top-level command line still imports. Its state, reload and read
    are those of `Config`; it differs in writing `docker.json` without
    first creating the configuration directory. */
module LegacyConfig {
  import opened Common
  import opened FileSystem
  import Config

  /** `KEYS`: the same two keys as the newer module, with no separate list
      of settable keys. */
  const Keys: seq<Str> := [Config.ConfigPathKey, Config.SockKey]

  /** Both modules name the same keys in the same order. */
  lemma KeysAgree()
    ensures Keys == Config.Keys
    ensures Keys[1..] == Config.SettableKeys
  {
  }

  /** The `CONFIG_PATH` setter: as in the newer module, store the path and
      reload. */
  function SetConfigPath(c: Config.Configure, fs: Fs, value: Path): (r: Config.Outcome)
    ensures r == Config.SetConfigPath(c, fs, value)
  {
    Config.Reload(value, fs)
  }

  /** `_write_docker_config` with no guard: the write fails when the
      directory does not exist. */
  function WriteDockerConfig(c: Config.Configure, fs: Fs): (r: Result<Fs>)
    ensures r.Ok? <==> c.configPath in fs.dirs && Config.DockerConfigPath(c) !in fs.dirs
    ensures r.Ok? ==> r.value == fs.(files := fs.files[Config.DockerConfigPath(c) := Config.DockerConfigDocument(c)])
  {
    WriteText(fs, Config.DockerConfigPath(c), Config.DockerConfigDocument(c))
  }

  /** The `DOCKER_SOCK_PATH` setter: the value is kept in memory even when
      writing it out raises. */
  function SetSockPath(c: Config.Configure, fs: Fs, value: Str): (r: Config.Outcome)
    ensures r.config == c.(sockPath := JStr(value))
    ensures r.raised.None? <==> c.configPath in fs.dirs && Config.DockerConfigPath(c) !in fs.dirs
    ensures r.raised.None? ==> r.fs.dirs == fs.dirs
    ensures r.raised.Some? ==> r.fs == fs
  {
    var c1 := c.(sockPath := JStr(value));
    match WriteDockerConfig(c1, fs)
    case Ok(fs1) => Config.Outcome(c1, fs1, None)
    case Err(e) => Config.Outcome(c1, fs, Some(e))
  }

  /** Where the configuration directory exists both setters behave alike;
      where it is missing the older one raises and the newer one creates
      the directory. */
  lemma SetSockPathAgainstGuarded(c: Config.Configure, fs: Fs, value: Str)
    ensures c.configPath in fs.dirs ==> SetSockPath(c, fs, value) == Config.SetSockPath(c, fs, value)
    ensures Valid(fs) && !Exists(fs, c.configPath) ==> SetSockPath(c, fs, value).raised == Some(OSError(FileNotFound))
  {
    if Valid(fs) {
      ChildOfExisting(fs, c.configPath, Config.DockerConfigName);
    }
  }

  /** A written socket path reads back after a reload, as in the newer
      module. */
  lemma ReloadAfterSetSockPath(c: Config.Configure, fs: Fs, value: Str)
    requires SetSockPath(c, fs, value).raised.None?
    ensures Config.Reload(c.configPath, SetSockPath(c, fs, value).fs).config == c.(sockPath := JStr(value))
  {
    var fs1 := SetSockPath(c, fs, value).fs;
    var doc := JObject(map[Config.SockKey := JStr(value)]);
    assert fs1.files[Config.DockerConfigPath(c)] == doc;
    assert doc.fields[Config.SockKey] == JStr(value);
  }
}

=== FILE: run_command.dfy ===
/** The `run` subcommand (kaprese/bin/kaprese_run.py): load the engines
    and benchmarks named on the command line, skipping unknown names, and
    run every (engine, benchmark) pair, engines in the outer loop. */
module RunCommand {
  import opened Common
  import opened FileSystem
  import Docker
  import Store
  import Benchmarks
  import Engines
  import Runner

  // ---------------------------------------------------------------------
  // Selection

  /** The loaded engines and benchmarks. */
  datatype Selection = Selection(engines: seq<Engines.Engine>, benchmarks: seq<Benchmarks.Benchmark>)

  /** Loading the names given with `-e` and `-b`. An option that was not
      given is `None`, and iterating it raises `TypeError`; engines are
      loaded (and may raise) before benchmarks. Names without a record are
      skipped and the others keep their order. */
  function Select(fs: Fs, configPath: Path, engineNames: Option<seq<Str>>, benchNames: Option<seq<Str>>, hex: Str): (r: Result<Selection>)
    requires Engines.IsUuidHex(hex)
    ensures engineNames.None? ==> r.Err? && r.error.TypeError?
    ensures engineNames.Some? && benchNames.None? && Store.LoadEach(Engines.Loader(fs, configPath, hex), engineNames.value).Ok? ==>
      r.Err? && r.error.TypeError?
    ensures engineNames.Some? && Store.LoadEach(Engines.Loader(fs, configPath, hex), engineNames.value).Err? ==>
      r == Err(Store.LoadEach(Engines.Loader(fs, configPath, hex), engineNames.value).error)
    ensures r.Ok? <==>
      && engineNames.Some? && benchNames.Some?
      && Store.LoadEach(Engines.Loader(fs, configPath, hex), engineNames.value).Ok?
      && Store.LoadEach(Benchmarks.Loader(fs, configPath), benchNames.value).Ok?
    ensures r.Ok? ==>
      && Store.LoadEach(Engines.Loader(fs, configPath, hex), engineNames.value) == Ok(r.value.engines)
      && Store.LoadEach(Benchmarks.Loader(fs, configPath), benchNames.value) == Ok(r.value.benchmarks)
  {
    if engineNames.None? then Err(TypeError("'NoneType' object is not iterable"))
    else
      match Store.LoadEach(Engines.Loader(fs, configPath, hex), engineNames.value)
      case Err(e) => Err(e)
      case Ok(engines) =>
        if benchNames.None? then Err(TypeError("'NoneType' object is not iterable"))
        else
          match Store.LoadEach(Benchmarks.Loader(fs, configPath), benchNames.value)
          case Err(e) => Err(e)
          case Ok(benches) => Ok(Selection(engines, benches))
  }

  /** Benchmark names without a record are skipped: selecting
      `names + [unknown] + more` selects what `names` and `more` select,
      in that order. */
  lemma SelectSkipsUnknown(fs: Fs, configPath: Path, names: seq<Str>, unknown: Str, more: seq<Str>)
    requires !Exists(fs, Store.RecordPath(Benchmarks.BenchmarkDir(configPath), unknown))
    ensures var load := Benchmarks.Loader(fs, configPath);
      Store.LoadEach(load, names + [unknown] + more) == Store.LoadEach(load, names + more)
  {
    Store.LoadEachSkipsMissing(Benchmarks.Loader(fs, configPath), names, unknown, more);
  }

  /** Engine names without a record are skipped in the same way. */
  lemma SelectSkipsUnknownEngine(fs: Fs, configPath: Path, hex: Str, names: seq<Str>, unknown: Str, more: seq<Str>)
    requires Engines.IsUuidHex(hex)
    requires !Exists(fs, Store.RecordPath(Engines.EngineDir(configPath), unknown))
    ensures var load := Engines.Loader(fs, configPath, hex);
      Store.LoadEach(load, names + [unknown] + more) == Store.LoadEach(load, names + more)
  {
    Store.LoadEachSkipsMissing(Engines.Loader(fs, configPath, hex), names, unknown, more);
  }

  /** Benchmark names are not de-duplicated: giving the same names twice
      loads each record twice. */
  lemma SelectKeepsDuplicates(fs: Fs, configPath: Path, names: seq<Str>)
    requires Store.LoadEach(Benchmarks.Loader(fs, configPath), names).Ok?
    ensures var once := Store.LoadEach(Benchmarks.Loader(fs, configPath), names).value;
      Store.LoadEach(Benchmarks.Loader(fs, configPath), names + names) == Ok(once + once)
  {
    Store.LoadEachTwice(Benchmarks.Loader(fs, configPath), names);
  }

  /** Nor are engine names. */
  lemma SelectKeepsDuplicateEngines(fs: Fs, configPath: Path, hex: Str, names: seq<Str>)
    requires Engines.IsUuidHex(hex)
    requires Store.LoadEach(Engines.Loader(fs, configPath, hex), names).Ok?
    ensures var once := Store.LoadEach(Engines.Loader(fs, configPath, hex), names).value;
      Store.LoadEach(Engines.Loader(fs, configPath, hex), names + names) == Ok(once + once)
  {
    Store.LoadEachTwice(Engines.Loader(fs, configPath, hex), names);
  }

  // ---------------------------------------------------------------------
  // Pair order

  /** Row `i` of the product: engine `i` with every benchmark in order. */
  function Row(i: nat, n: nat): (r: seq<(nat, nat)>)
    ensures |r| == n && forall j :: 0 <= j < n ==> r[j] == (i, j)
  {
    seq(n, j requires 0 <= j < n => (i, j))
  }

  /** Every pair names one of `m` engines and one of `n` benchmarks. */
  predicate InRange(pairs: seq<(nat, nat)>, m: nat, n: nat) {
    forall k :: 0 <= k < |pairs| ==> pairs[k].0 < m && pairs[k].1 < n
  }

  /** `itertools.product` over `m` engines and `n` benchmarks, as index
      pairs. */
  function PairOrder(m: nat, n: nat): (r: seq<(nat, nat)>)
    ensures |r| == m * n
    ensures InRange(r, m, n)
  {
    if m == 0 then [] else PairOrder(m - 1, n) + Row(m - 1, n)
  }

  lemma {:induction false} MulStep(i: nat, k: nat, n: nat)
    requires i < k
    ensures i * n + n <= k * n
  {
    if i + 1 < k {
      MulStep(i, k - 1, n);
    }
    assert (k - 1) * n + n == k * n;
  }

  /** Pair `(i, j)` is visited at position `i * n + j`: every pair exactly
      once, engine-major. */
  lemma {:induction false} PairOrderIndex(m: nat, n: nat, i: nat, j: nat)
    requires i < m && j < n
    ensures i * n + j < m * n && PairOrder(m, n)[i * n + j] == (i, j)
  {
    MulStep(i, m, n);
    if i < m - 1 {
      PairOrderIndex(m - 1, n, i, j);
    } else {
      assert i * n + j == |PairOrder(m - 1, n)| + j;
    }
  }

  // ---------------------------------------------------------------------
  // The loop

  /** What the loop leaves: the pairs run, the benchmarks (whose caches
      persist across engines), the runtime, and the exception that ended
      the loop early, if any. */
  datatype Loop = Loop(visited: seq<(nat, nat)>, benchmarks: seq<Benchmarks.Benchmark>, rt: Docker.Runtime, raised: Option<Error>)

  /** A loop result with the pairs `done` run before it. */
  function Resume(done: seq<(nat, nat)>, rest: Loop): Loop {
    rest.(visited := done + rest.visited)
  }

  /** One run of a benchmark with an engine: what it returns or raises,
      the benchmark's new state and the runtime it leaves. */
  type RunStep = (Benchmarks.Benchmark, Engines.Engine, Docker.Runtime) -> Runner.RunOutcome

  /** `Runner(bench, engine).run()` with the `run` command's settings. */
  function RunnerStep(prepare: Runner.Prepare, deleteRunner: bool): RunStep {
    (b, e, rt) => Runner.Run(b, e, rt, prepare, deleteRunner)
  }

  /** The reference for the loop: `run` for each pair in turn, each run
      seeing the benchmark states and the runtime the earlier runs left,
      its result otherwise ignored; the first exception ends it. */
  function RunPairs(run: RunStep, engines: seq<Engines.Engine>, benches: seq<Benchmarks.Benchmark>, rt: Docker.Runtime,
                    pairs: seq<(nat, nat)>): (r: Loop)
    requires InRange(pairs, |engines|, |benches|)
    ensures |r.benchmarks| == |benches|
    decreases |pairs|
  {
    if pairs == [] then Loop([], benches, rt, None)
    else
      var out := run(benches[pairs[0].1], engines[pairs[0].0], rt);
      var states := benches[pairs[0].1 := out.bench];
      if out.result.Err? then Loop([pairs[0]], states, out.rt, Some(out.result.error))
      else
        InRangeTail(pairs, |engines|, |benches|);
        Resume([pairs[0]], RunPairs(run, engines, states, out.rt, pairs[1..]))
  }

  lemma InRangeTail(pairs: seq<(nat, nat)>, m: nat, n: nat)
    requires InRange(pairs, m, n) && pairs != []
    ensures InRange(pairs[1..], m, n)
  {
    assert forall k :: 0 <= k < |pairs| - 1 ==> pairs[1..][k] == pairs[k + 1];
  }

  /** The loop runs the pairs in order: all of them unless one raises, and
      then exactly those up to the one that raised. */
  lemma {:induction false} RunPairsVisits(run: RunStep, engines: seq<Engines.Engine>, benches: seq<Benchmarks.Benchmark>,
                                          rt: Docker.Runtime, pairs: seq<(nat, nat)>)
    requires InRange(pairs, |engines|, |benches|)
    ensures var r := RunPairs(run, engines, benches, rt, pairs);
      && (r.raised.None? ==> r.visited == pairs)
      && (r.raised.Some? ==> 0 < |r.visited| <= |pairs| && r.visited == pairs[..|r.visited|])
    decreases |pairs|
  {
    if pairs != [] {
      var out := run(benches[pairs[0].1], engines[pairs[0].0], rt);
      if out.result.Ok? {
        InRangeTail(pairs, |engines|, |benches|);
        var states := benches[pairs[0].1 := out.bench];
        RunPairsVisits(run, engines, states, out.rt, pairs[1..]);
        var rest := RunPairs(run, engines, states, out.rt, pairs[1..]);
        assert [pairs[0]] + pairs[1..] == pairs;
        if rest.raised.Some? {
          assert [pairs[0]] + rest.visited == pairs[..1 + |rest.visited|];
        }
      }
    }
  }

  /** A step that never raises for these engines. */
  ghost predicate NeverRaises(run: RunStep, engines: seq<Engines.Engine>) {
    forall b, i, rt :: 0 <= i < |engines| ==> run(b, engines[i], rt).result.Ok?
  }

  /** A step that never raises runs every pair. */
  lemma {:induction false} RunPairsNeverRaises(run: RunStep, engines: seq<Engines.Engine>, benches: seq<Benchmarks.Benchmark>,
                                               rt: Docker.Runtime, pairs: seq<(nat, nat)>)
    requires InRange(pairs, |engines|, |benches|) && NeverRaises(run, engines)
    ensures RunPairs(run, engines, benches, rt, pairs).raised.None?
    decreases |pairs|
  {
    if pairs != [] {
      var out := run(benches[pairs[0].1], engines[pairs[0].0], rt);
      InRangeTail(pairs, |engines|, |benches|);
      RunPairsNeverRaises(run, engines, benches[pairs[0].1 := out.bench], out.rt, pairs[1..]);
    }
  }

  /** With build arguments free of braces, `run` never raises. */
  lemma PlainNeverRaises(prepare: Runner.Prepare, deleteRunner: bool, engines: seq<Engines.Engine>)
    requires forall i :: 0 <= i < |engines| ==> Runner.PlainBuildArgs(engines[i])
    ensures NeverRaises(RunnerStep(prepare, deleteRunner), engines)
  {
    forall b, i, rt | 0 <= i < |engines|
      ensures RunnerStep(prepare, deleteRunner)(b, engines[i], rt).result.Ok?
    {
      Runner.RunPlainNeverRaises(b, engines[i], rt, prepare, deleteRunner);
    }
  }

  /** The next pair of a suffix of in-range pairs is in range. */
  lemma InRangeNext(pairs: seq<(nat, nat)>, k: nat, m: nat, n: nat)
    requires k < |pairs| && InRange(pairs[k..], m, n)
    ensures pairs[k].0 < m && pairs[k].1 < n
  {
    assert pairs[k..][0] == pairs[k];
  }

  /** The loop state after the pairs before `k` have run without an
      exception: running the rest of the pairs from it gives `whole`. */
  ghost predicate Reaches(run: RunStep, engines: seq<Engines.Engine>, states: seq<Benchmarks.Benchmark>, current: Docker.Runtime,
                          pairs: seq<(nat, nat)>, k: nat, whole: Loop)
  {
    k <= |pairs| && InRange(pairs[k..], |engines|, |states|) &&
    Resume(pairs[..k], RunPairs(run, engines, states, current, pairs[k..])) == whole
  }

  /** One step of the loop against the reference: after the pairs before
      `k` have run, the run `out` of pair `k` either raises, which is the
      whole result, or leaves the pairs up to `k` run. */
  lemma Advance(run: RunStep, engines: seq<Engines.Engine>, states: seq<Benchmarks.Benchmark>, current: Docker.Runtime,
                pairs: seq<(nat, nat)>, k: nat, whole: Loop, out: Runner.RunOutcome)
    requires k < |pairs| && Reaches(run, engines, states, current, pairs, k, whole)
    requires pairs[k].0 < |engines| && pairs[k].1 < |states|
    requires out == run(states[pairs[k].1], engines[pairs[k].0], current)
    ensures out.result.Err? ==> whole == Loop(pairs[..k + 1], states[pairs[k].1 := out.bench], out.rt, Some(out.result.error))
    ensures out.result.Ok? ==> Reaches(run, engines, states[pairs[k].1 := out.bench], out.rt, pairs, k + 1, whole)
  {
    var rest := pairs[k..];
    assert rest[0] == pairs[k] && rest[1..] == pairs[k + 1..];
    assert pairs[..k] + [pairs[k]] == pairs[..k + 1];
    InRangeTail(rest, |engines|, |states|);
    if out.result.Ok? {
      var tail := RunPairs(run, engines, states[pairs[k].1 := out.bench], out.rt, pairs[k + 1..]);
      assert pairs[..k] + ([pairs[k]] + tail.visited) == pairs[..k + 1] + tail.visited;
    }
  }

  /** The loop over a given sequence of pairs: each run threads the
      benchmark states and the runtime, and an exception ends the loop. */
  method RunEach(run: RunStep, engines: seq<Engines.Engine>, benches: seq<Benchmarks.Benchmark>, rt: Docker.Runtime,
                 pairs: seq<(nat, nat)>) returns (r: Loop)
    requires InRange(pairs, |engines|, |benches|)
    ensures r == RunPairs(run, engines, benches, rt, pairs)
  {
    ghost var whole := RunPairs(run, engines, benches, rt, pairs);
    var states := benches;
    var current := rt;
    var k := 0;
    assert pairs[..0] == [] && pairs[0..] == pairs;
    while k < |pairs|
      invariant |states| == |benches|
      invariant Reaches(run, engines, states, current, pairs, k, whole)
    {
      InRangeNext(pairs, k, |engines|, |states|);
      var i, j := pairs[k].0, pairs[k].1;
      var out := run(states[j], engines[i], current);
      Advance(run, engines, states, current, pairs, k, whole, out);
      states := states[j := out.bench];
      current := out.rt;
      if out.result.Err? {
        return Loop(pairs[..k + 1], states, current, Some(out.result.error));
      }
      k := k + 1;
    }
    assert pairs[..k] == pairs && pairs[k..] == [];
    return Loop(pairs, states, current, None);
  }

  /** `for engine, bench in product(engines, benchmarks):
      Runner(bench, engine).run()`: one run per pair in product order,
      threading the benchmark states and the runtime; an exception ends
      the loop, and with build arguments free of braces none does. */
  method RunAll(engines: seq<Engines.Engine>, benches: seq<Benchmarks.Benchmark>, rt: Docker.Runtime,
                prepare: Runner.Prepare, deleteRunner: bool) returns (r: Loop)
    ensures r == RunPairs(RunnerStep(prepare, deleteRunner), engines, benches, rt, PairOrder(|engines|, |benches|))
    ensures |r.benchmarks| == |benches|
    ensures r.raised.None? ==> r.visited == PairOrder(|engines|, |benches|)
    ensures r.raised.Some? ==>
      0 < |r.visited| <= |PairOrder(|engines|, |benches|)| && r.visited == PairOrder(|engines|, |benches|)[..|r.visited|]
    ensures (forall i :: 0 <= i < |engines| ==> Runner.PlainBuildArgs(engines[i])) ==> r.raised.None?
  {
    var pairs := PairOrder(|engines|, |benches|);
    var run := RunnerStep(prepare, deleteRunner);
    if forall i :: 0 <= i < |engines| ==> Runner.PlainBuildArgs(engines[i]) {
      PlainNeverRaises(prepare, deleteRunner, engines);
      RunPairsNeverRaises(run, engines, benches, rt, pairs);
    }
    RunPairsVisits(run, engines, benches, rt, pairs);
    r := RunEach(run, engines, benches, rt, pairs);
  }

  /** The product over fewer engines is a prefix of the product. */
  lemma {:induction false} PairOrderGrows(i: nat, m: nat, n: nat)
    requires i <= m
    ensures PairOrder(i, n) <= PairOrder(m, n)
  {
    if i < m {
      PairOrderGrows(i, m - 1, n);
      var shorter := PairOrder(m - 1, n);
      assert shorter <= shorter + Row(m - 1, n) by {
        assert shorter == (shorter + Row(m - 1, n))[..|shorter|];
      }
    }
  }

  /** The command: select, then run every pair. */
  method Execute(fs: Fs, configPath: Path, engineNames: Option<seq<Str>>, benchNames: Option<seq<Str>>, hex: Str,
                 rt: Docker.Runtime, prepare: Runner.Prepare) returns (r: Result<Loop>)
    requires Engines.IsUuidHex(hex)
    ensures Select(fs, configPath, engineNames, benchNames, hex).Err? ==> r == Err(Select(fs, configPath, engineNames, benchNames, hex).error)
    ensures r.Ok? <==> Select(fs, configPath, engineNames, benchNames, hex).Ok?
    ensures r.Ok? ==>
      var s := Select(fs, configPath, engineNames, benchNames, hex).value;
      r.value == RunPairs(RunnerStep(prepare, false), s.engines, s.benchmarks, rt, PairOrder(|s.engines|, |s.benchmarks|))
  {
    var s := Select(fs, configPath, engineNames, benchNames, hex);
    if s.Err? {
      return Err(s.error);
    }
    var loop := RunAll(s.value.engines, s.value.benchmarks, rt, prepare, false);
    return Ok(loop);
  }
}

=== FILE: runner.dfy ===
/** `Runner.run` of kaprese/core/runner.py: make the benchmark ready, then
    make the runner image `<engine image>:<benchmark name>` local by using
    it, pulling it or building it from the engine's location, and
    optionally delete it again. */
module Runner {
  import opened Common
  import Docker
  import Template
  import Benchmarks
  import Engines

  /** The preparation step the runner invokes on a benchmark that is not
      ready. The benchmark class defines no such method; the intended
      behaviour is left open as an arbitrary transition. */
  type Prepare = (Benchmarks.Benchmark, Docker.Runtime) -> Benchmarks.State

  predicate IsReady(b: Benchmarks.Benchmark) {
    b.available && b.language.Some?
  }

  /** The runner image tag. */
  function Tag(e: Engines.Engine, b: Benchmarks.Benchmark): Str {
    e.image + ":" + b.name
  }

  /** The readiness gate: read `ready`; if it is false, prepare once and
      read it again. */
  function Gate(b: Benchmarks.Benchmark, rt: Docker.Runtime, prepare: Prepare): (r: Benchmarks.Step<bool>)
    ensures r.value <==> IsReady(r.bench)
    ensures IsReady(b) ==> r == Benchmarks.Step(true, b, rt)
    ensures Benchmarks.Ready(b, rt).value ==> r == Benchmarks.Ready(b, rt)
    ensures !Benchmarks.Ready(b, rt).value ==>
      var f := Benchmarks.Ready(b, rt);
      var p := prepare(f.bench, f.rt);
      r == Benchmarks.Ready(p.bench, p.rt)
  {
    var first := Benchmarks.Ready(b, rt);
    if first.value then first
    else
      var p := prepare(first.bench, first.rt);
      Benchmarks.Ready(p.bench, p.rt)
  }

  // ---------------------------------------------------------------------
  // Build arguments

  /** The replacement fields a template formatted with `benchmark=` can
      name, with their `str()` values, for a ready benchmark (whose
      properties read without querying the runtime). */
  function BenchmarkFields(b: Benchmarks.Benchmark): map<Str, Str>
    requires IsReady(b)
  {
    map[
      "benchmark.name" := b.name,
      "benchmark.image" := b.image,
      "benchmark._language" := b.language.value,
      "benchmark.language" := b.language.value,
      "benchmark.language_command" := PyStr(b.languageCommand),
      "benchmark._availablility" := PyBool(b.available),
      "benchmark.availability" := PyBool(b.available),
      "benchmark.ready" := PyBool(IsReady(b))]
  }

  /** `_process_build_args`: the same keys, each value formatted against
      the benchmark; any value that fails to format makes it raise. */
  function ProcessBuildArgs(args: map<Str, Str>, b: Benchmarks.Benchmark): (r: Result<map<Str, Str>>)
    requires IsReady(b)
    ensures r.Ok? <==> forall k :: k in args ==> Template.Format(args[k], BenchmarkFields(b)).Ok?
    ensures r.Ok? ==> r.value.Keys == args.Keys
    ensures r.Ok? ==> forall k :: k in args ==> Template.Format(args[k], BenchmarkFields(b)) == Ok(r.value[k])
  {
    var env := BenchmarkFields(b);
    if forall k :: k in args ==> Template.Format(args[k], env).Ok?
    then Ok(map k | k in args :: Template.Format(args[k], env).value)
    else Err(ValueError("a build argument does not format"))
  }

  /** Values without braces pass through unchanged. */
  lemma ProcessBuildArgsPlain(args: map<Str, Str>, b: Benchmarks.Benchmark)
    requires IsReady(b)
    requires forall k :: k in args ==> Template.NoBraces(args[k])
    ensures ProcessBuildArgs(args, b) == Ok(args)
  {
    var env := BenchmarkFields(b);
    assert forall k :: k in args ==> Template.Format(args[k], env) == Ok(args[k]);
    var m := map k | k in args :: Template.Format(args[k], env).value;
    assert m == args;
  }

  /** A value that is one replacement field naming a benchmark attribute
      (as the engine presets' `{benchmark.image}`) becomes that
      attribute. */
  lemma ProcessBuildArgsField(key: Str, field: Str, b: Benchmarks.Benchmark)
    requires IsReady(b) && field in BenchmarkFields(b) && Template.PlainField(field)
    ensures ProcessBuildArgs(map[key := "{" + field + "}"], b) == Ok(map[key := BenchmarkFields(b)[field]])
  {
    var env := BenchmarkFields(b);
    var t := "{" + field + "}";
    Template.FormatField(field, "", env);
    assert t + "" == t;
    assert env[field] + "" == env[field];
    var args := map[key := t];
    assert Template.Format(args[key], env) == Ok(env[field]);
    assert (map k | k in args :: Template.Format(args[k], env).value) == map[key := env[field]];
  }

  // ---------------------------------------------------------------------
  // Provisioning the runner image

  /** How the runner image was obtained, and the runtime afterwards. */
  datatype Provisioned = Provisioned(result: Result<bool>, rt: Docker.Runtime)

  /** Whether the runner image can be made local: it is local, a pull
      succeeds, or there is a location, the build arguments format and a
      build from the location succeeds. */
  predicate Obtainable(tag: Str, location: Option<Str>, buildArgs: Result<map<Str, Str>>, rt: Docker.Runtime) {
    || Docker.Reference(tag) in rt.images
    || Docker.Reference(tag) in rt.registry
    || (location.Some? && buildArgs.Ok? && (location.value, buildArgs.value) in rt.buildable)
  }

  /** The exists/pull/build fallback of `run`, given the build arguments
      (or the error computing them raises). */
  function Provision(tag: Str, location: Option<Str>, buildArgs: Result<map<Str, Str>>, rt: Docker.Runtime): (r: Provisioned)
    ensures Docker.Extends(rt, r.rt)
    ensures |Docker.NewCalls(rt, r.rt)| > 0 && Docker.NewCalls(rt, r.rt)[0] == Docker.ImagesGet(tag)
    ensures Docker.Reference(tag) in rt.images ==>
      !Docker.Pulls(Docker.NewCalls(rt, r.rt)) && !Docker.Builds(Docker.NewCalls(rt, r.rt))
    ensures Docker.Reference(tag) !in rt.images && Docker.Reference(tag) in rt.registry ==>
      !Docker.Builds(Docker.NewCalls(rt, r.rt))
    ensures Docker.Reference(tag) !in rt.images && Docker.Reference(tag) !in rt.registry && location.None? ==>
      r.result == Ok(false) && !Docker.Builds(Docker.NewCalls(rt, r.rt))
    ensures r.result == Ok(true) <==> Obtainable(tag, location, buildArgs, rt)
    ensures r.result.Err? <==>
      Docker.Reference(tag) !in rt.images && Docker.Reference(tag) !in rt.registry && location.Some? && buildArgs.Err?
    ensures r.rt.images == if r.result == Ok(true) then rt.images + {Docker.Reference(tag)} else rt.images
    ensures !Docker.Removes(Docker.NewCalls(rt, r.rt))
    ensures Docker.Builds(Docker.NewCalls(rt, r.rt)) ==>
      location.Some? && buildArgs.Ok? && Docker.ImagesBuild(location.value, tag, buildArgs.value, false) in Docker.NewCalls(rt, r.rt)
  {
    var ex := Docker.ImageExists(rt, tag);
    if ex.value then
      assert Docker.NewCalls(rt, ex.rt) == [Docker.ImagesGet(tag)];
      Provisioned(Ok(true), ex.rt)
    else
      var f := Fallback(tag, location, buildArgs, ex.rt);
      Docker.ExtendsTrans(rt, ex.rt, f.rt);
      assert Docker.NewCalls(rt, ex.rt) == [Docker.ImagesGet(tag)];
      FirstCallOnly([Docker.ImagesGet(tag)], Docker.NewCalls(ex.rt, f.rt));
      f
  }

  /** A single lookup followed by other requests pulls, builds and
      removes exactly when those requests do. */
  lemma FirstCallOnly(first: seq<Docker.Call>, rest: seq<Docker.Call>)
    requires |first| == 1 && first[0].ImagesGet?
    ensures Docker.Pulls(first + rest) <==> Docker.Pulls(rest)
    ensures Docker.Builds(first + rest) <==> Docker.Builds(rest)
    ensures Docker.Removes(first + rest) <==> Docker.Removes(rest)
    ensures forall c :: c in rest ==> c in first + rest
  {
    PullsBuildsAppend(first, rest);
    RemovesAppend(first, rest);
  }

  /** The fallback for a tag that is not local: pull it, or else build it
      from the location when there is one. */
  function Fallback(tag: Str, location: Option<Str>, buildArgs: Result<map<Str, Str>>, rt: Docker.Runtime): (r: Provisioned)
    ensures Docker.Extends(rt, r.rt)
    ensures |Docker.NewCalls(rt, r.rt)| > 0 && Docker.NewCalls(rt, r.rt)[0].ImagesPull?
    ensures Docker.Reference(tag) in rt.registry ==> !Docker.Builds(Docker.NewCalls(rt, r.rt))
    ensures Docker.Reference(tag) !in rt.registry && location.None? ==>
      r.result == Ok(false) && !Docker.Builds(Docker.NewCalls(rt, r.rt))
    ensures r.result == Ok(true) <==>
      Docker.Reference(tag) in rt.registry || (location.Some? && buildArgs.Ok? && (location.value, buildArgs.value) in rt.buildable)
    ensures r.result.Err? <==> Docker.Reference(tag) !in rt.registry && location.Some? && buildArgs.Err?
    ensures r.rt.images == if r.result == Ok(true) then rt.images + {Docker.Reference(tag)} else rt.images
    ensures !Docker.Removes(Docker.NewCalls(rt, r.rt))
    ensures Docker.Builds(Docker.NewCalls(rt, r.rt)) ==>
      location.Some? && buildArgs.Ok? && Docker.ImagesBuild(location.value, tag, buildArgs.value, false) in Docker.NewCalls(rt, r.rt)
  {
    var p := Docker.PullImage(rt, tag);
    var pulled := [Docker.ImagesPull(Docker.SplitTag(tag).0, Docker.SplitTag(tag).1)];
    assert Docker.NewCalls(rt, p.rt) == pulled;
    if p.value then Provisioned(Ok(true), p.rt)
    else if location.None? then Provisioned(Ok(false), p.rt)
    else if buildArgs.Err? then Provisioned(Err(buildArgs.error), p.rt)
    else
      var bi := Docker.BuildImage(p.rt, tag, location.value, Some(buildArgs.value), false);
      var built := pulled + [Docker.ImagesBuild(location.value, tag, buildArgs.value, false)];
      assert Docker.NewCalls(rt, bi.rt) == built;
      assert built[1].ImagesBuild?;
      Provisioned(Ok(bi.value), bi.rt)
  }

  /** The fallback as written: the pull splits the tag at every colon. */
  function ProvisionAsWritten(tag: Str, location: Option<Str>, buildArgs: Result<map<Str, Str>>, rt: Docker.Runtime): (r: Provisioned)
    ensures Docker.Extends(rt, r.rt)
    ensures r.result.Err? <==>
      && Docker.Reference(tag) !in rt.images
      && (Docker.Count(tag, ':') >= 2 || (Docker.Reference(tag) !in rt.registry && location.Some? && buildArgs.Err?))
  {
    var ex := Docker.ImageExists(rt, tag);
    if ex.value then Provisioned(Ok(true), ex.rt)
    else
      var p := Docker.PullImageAsWritten(ex.rt, tag);
      if p.value.Err? then Provisioned(Err(p.value.error), p.rt)
      else if p.value.value then Provisioned(Ok(true), p.rt)
      else if location.None? then Provisioned(Ok(false), p.rt)
      else if buildArgs.Err? then Provisioned(Err(buildArgs.error), p.rt)
      else
        var bi := Docker.BuildImage(p.rt, tag, location.value, Some(buildArgs.value), false);
        Provisioned(Ok(bi.value), bi.rt)
  }

  /** The two differ only for an absent image whose tag has two or more
      colons, where the pull as written raises. */
  lemma ProvisionAsWrittenAgrees(tag: Str, location: Option<Str>, buildArgs: Result<map<Str, Str>>, rt: Docker.Runtime)
    ensures Docker.Reference(tag) in rt.images || Docker.Count(tag, ':') < 2 ==>
      ProvisionAsWritten(tag, location, buildArgs, rt) == Provision(tag, location, buildArgs, rt)
    ensures Docker.Reference(tag) !in rt.images && Docker.Count(tag, ':') >= 2 ==>
      ProvisionAsWritten(tag, location, buildArgs, rt).result.Err?
  {
  }

  // ---------------------------------------------------------------------
  // run

  /** What `run` returns (or raises), the benchmark and the runtime after
      it. */
  datatype RunOutcome = RunOutcome(result: Result<bool>, bench: Benchmarks.Benchmark, rt: Docker.Runtime)

  /** The part of `run` after the gate: provision the runner image and,
      when that succeeded and `delete_runner` is set, delete it again. */
  function Finish(tag: Str, location: Option<Str>, buildArgs: Result<map<Str, Str>>, rt: Docker.Runtime, deleteRunner: bool): (r: Provisioned)
    ensures Docker.Extends(rt, r.rt)
    ensures |Docker.NewCalls(rt, r.rt)| > 0 && Docker.NewCalls(rt, r.rt)[0] == Docker.ImagesGet(tag)
    ensures Docker.Reference(tag) in rt.images ==>
      !Docker.Pulls(Docker.NewCalls(rt, r.rt)) && !Docker.Builds(Docker.NewCalls(rt, r.rt))
    ensures Docker.Reference(tag) !in rt.images && Docker.Reference(tag) in rt.registry ==>
      !Docker.Builds(Docker.NewCalls(rt, r.rt))
    ensures Docker.Reference(tag) !in rt.images && Docker.Reference(tag) !in rt.registry && location.None? ==>
      r.result == Ok(false) && !Docker.Builds(Docker.NewCalls(rt, r.rt))
    ensures r.result == Ok(true) <==> Obtainable(tag, location, buildArgs, rt)
    ensures r.result.Err? <==>
      Docker.Reference(tag) !in rt.images && Docker.Reference(tag) !in rt.registry && location.Some? && buildArgs.Err?
    ensures Docker.Removes(Docker.NewCalls(rt, r.rt)) <==> r.result == Ok(true) && deleteRunner
    ensures r.rt.images ==
      if r.result != Ok(true) then rt.images
      else if deleteRunner then rt.images - {Docker.Reference(tag)}
      else rt.images + {Docker.Reference(tag)}
  {
    var p := Provision(tag, location, buildArgs, rt);
    if p.result == Ok(true) && deleteRunner then
      DeleteAfter(rt, p.rt, tag);
      Provisioned(Ok(true), Docker.DeleteImage(p.rt, tag))
    else p
  }

  /** `run` as evidently intended: a missing `prepare` is the given
      transition and the build arguments are the engine's. Once the gate
      is passed, the requests `run` sends begin with the existence check of
      the runner tag; a local tag is neither pulled nor built, a pulled tag
      is not built, and without a location nothing is built. The result is
      true exactly when the tag was local, pulled or built, and the tag is
      deleted exactly on that path when `delete_runner` is set. */
  function Run(b: Benchmarks.Benchmark, e: Engines.Engine, rt: Docker.Runtime, prepare: Prepare, deleteRunner: bool): (r: RunOutcome)
    ensures var g := Gate(b, rt, prepare);
      && r.bench == g.bench
      && (!g.value ==> r.result == Ok(false) && r.rt == g.rt)
      && (g.value ==> Docker.Extends(g.rt, r.rt))
    ensures var g := Gate(b, rt, prepare); var tag := Tag(e, g.bench); g.value ==>
      && |Docker.NewCalls(g.rt, r.rt)| > 0 && Docker.NewCalls(g.rt, r.rt)[0] == Docker.ImagesGet(tag)
      && (Docker.Reference(tag) in g.rt.images ==>
            !Docker.Pulls(Docker.NewCalls(g.rt, r.rt)) && !Docker.Builds(Docker.NewCalls(g.rt, r.rt)))
      && (Docker.Reference(tag) !in g.rt.images && Docker.Reference(tag) in g.rt.registry ==>
            !Docker.Builds(Docker.NewCalls(g.rt, r.rt)))
      && (Docker.Reference(tag) !in g.rt.images && Docker.Reference(tag) !in g.rt.registry && e.location.None? ==>
            r.result == Ok(false) && !Docker.Builds(Docker.NewCalls(g.rt, r.rt)))
    ensures var g := Gate(b, rt, prepare); var tag := Tag(e, g.bench); g.value ==>
      && (r.result == Ok(true) <==> Obtainable(tag, e.location, ProcessBuildArgs(e.buildArgs, g.bench), g.rt))
      && (r.result.Err? <==> Docker.Reference(tag) !in g.rt.images && Docker.Reference(tag) !in g.rt.registry
                              && e.location.Some? && ProcessBuildArgs(e.buildArgs, g.bench).Err?)
      && (Docker.Removes(Docker.NewCalls(g.rt, r.rt)) <==> r.result == Ok(true) && deleteRunner)
    ensures var g := Gate(b, rt, prepare); var tag := Tag(e, g.bench); g.value ==>
      r.rt.images ==
        if r.result != Ok(true) then g.rt.images
        else if deleteRunner then g.rt.images - {Docker.Reference(tag)}
        else g.rt.images + {Docker.Reference(tag)}
  {
    var g := Gate(b, rt, prepare);
    if !g.value then RunOutcome(Ok(false), g.bench, g.rt)
    else
      var f := Finish(Tag(e, g.bench), e.location, ProcessBuildArgs(e.buildArgs, g.bench), g.rt, deleteRunner);
      RunOutcome(f.result, g.bench, f.rt)
  }

  /** Deleting a present tag after some requests adds a lookup and a
      removal, and no pull or build. */
  lemma DeleteAfter(rt: Docker.Runtime, mid: Docker.Runtime, tag: Str)
    requires Docker.Extends(rt, mid) && Docker.Reference(tag) in mid.images
    ensures var d := Docker.DeleteImage(mid, tag);
      && Docker.Extends(rt, d)
      && Docker.NewCalls(rt, d) == Docker.NewCalls(rt, mid) + [Docker.ImagesGet(tag), Docker.ImagesRemove(tag)]
      && Docker.Removes(Docker.NewCalls(rt, d))
      && (Docker.Pulls(Docker.NewCalls(rt, d)) <==> Docker.Pulls(Docker.NewCalls(rt, mid)))
      && (Docker.Builds(Docker.NewCalls(rt, d)) <==> Docker.Builds(Docker.NewCalls(rt, mid)))
  {
    var d := Docker.DeleteImage(mid, tag);
    var tail := [Docker.ImagesGet(tag), Docker.ImagesRemove(tag)];
    assert Docker.NewCalls(rt, d) == Docker.NewCalls(rt, mid) + tail;
    assert tail[1].ImagesRemove?;
    assert !Docker.Pulls(tail) && !Docker.Builds(tail);
    RemovesAppend(Docker.NewCalls(rt, mid), tail);
    PullsBuildsAppend(Docker.NewCalls(rt, mid), tail);
  }

  lemma RemovesAppend(a: seq<Docker.Call>, b: seq<Docker.Call>)
    ensures Docker.Removes(a + b) <==> Docker.Removes(a) || Docker.Removes(b)
  {
    if Docker.Removes(a + b) {
      var i :| 0 <= i < |a + b| && (a + b)[i].ImagesRemove?;
      if i < |a| { assert a[i] == (a + b)[i]; } else { assert b[i - |a|] == (a + b)[i]; }
    }
    if Docker.Removes(a) {
      var i :| 0 <= i < |a| && a[i].ImagesRemove?;
      assert (a + b)[i] == a[i];
    }
    if Docker.Removes(b) {
      var i :| 0 <= i < |b| && b[i].ImagesRemove?;
      assert (a + b)[|a| + i] == b[i];
    }
  }

  lemma PullsBuildsAppend(a: seq<Docker.Call>, b: seq<Docker.Call>)
    ensures Docker.Pulls(a + b) <==> Docker.Pulls(a) || Docker.Pulls(b)
    ensures Docker.Builds(a + b) <==> Docker.Builds(a) || Docker.Builds(b)
  {
    if Docker.Pulls(a + b) {
      var i :| 0 <= i < |a + b| && (a + b)[i].ImagesPull?;
      if i < |a| { assert a[i] == (a + b)[i]; } else { assert b[i - |a|] == (a + b)[i]; }
    }
    if Docker.Pulls(a) {
      var i :| 0 <= i < |a| && a[i].ImagesPull?;
      assert (a + b)[i] == a[i];
    }
    if Docker.Pulls(b) {
      var i :| 0 <= i < |b| && b[i].ImagesPull?;
      assert (a + b)[|a| + i] == b[i];
    }
    if Docker.Builds(a + b) {
      var i :| 0 <= i < |a + b| && (a + b)[i].ImagesBuild?;
      if i < |a| { assert a[i] == (a + b)[i]; } else { assert b[i - |a|] == (a + b)[i]; }
    }
    if Docker.Builds(a) {
      var i :| 0 <= i < |a| && a[i].ImagesBuild?;
      assert (a + b)[i] == a[i];
    }
    if Docker.Builds(b) {
      var i :| 0 <= i < |b| && b[i].ImagesBuild?;
      assert (a + b)[|a| + i] == b[i];
    }
  }

  /** When the benchmark is still not ready after preparing, `run` returns
      false and sends no request of its own. */
  lemma RunNotReady(b: Benchmarks.Benchmark, e: Engines.Engine, rt: Docker.Runtime, prepare: Prepare, deleteRunner: bool)
    requires !Gate(b, rt, prepare).value
    ensures Run(b, e, rt, prepare, deleteRunner).result == Ok(false)
    ensures Run(b, e, rt, prepare, deleteRunner).rt == Gate(b, rt, prepare).rt
  {
  }

  /** An engine whose build arguments hold no replacement field. */
  predicate PlainBuildArgs(e: Engines.Engine) {
    forall k :: k in e.buildArgs ==> Template.NoBraces(e.buildArgs[k])
  }

  /** Formatting the build arguments is the only way `run` can raise, so
      with plain build arguments it always returns a boolean. */
  lemma RunPlainNeverRaises(b: Benchmarks.Benchmark, e: Engines.Engine, rt: Docker.Runtime, prepare: Prepare, deleteRunner: bool)
    requires PlainBuildArgs(e)
    ensures Run(b, e, rt, prepare, deleteRunner).result.Ok?
  {
    var g := Gate(b, rt, prepare);
    if g.value {
      ProcessBuildArgsPlain(e.buildArgs, g.bench);
    }
  }

  /** `run` as written. The benchmark has no `prepare`, so a benchmark that
      is not ready makes it raise `AttributeError`; and the engine has no
      `build_args`, so reaching the build raises `AttributeError` too. */
  function RunAsWritten(b: Benchmarks.Benchmark, e: Engines.Engine, rt: Docker.Runtime, deleteRunner: bool): (r: RunOutcome)
    ensures !Benchmarks.Ready(b, rt).value ==> r.result == Err(AttributeError("prepare"))
    ensures Benchmarks.Ready(b, rt).value ==> Docker.Extends(Benchmarks.Ready(b, rt).rt, r.rt)
  {
    var ready := Benchmarks.Ready(b, rt);
    if !ready.value then RunOutcome(Err(AttributeError("prepare")), ready.bench, ready.rt)
    else
      var tag := Tag(e, ready.bench);
      var p := ProvisionAsWritten(tag, e.location, Err(AttributeError("build_args")), ready.rt);
      if p.result == Ok(true) && deleteRunner then RunOutcome(Ok(true), ready.bench, Docker.DeleteImage(p.rt, tag))
      else RunOutcome(p.result, ready.bench, p.rt)
  }

  /** As written, every build attempt raises: an absent image that no pull
      provides and an engine with a location end in `AttributeError`. */
  lemma RunAsWrittenCannotBuild(b: Benchmarks.Benchmark, e: Engines.Engine, rt: Docker.Runtime, deleteRunner: bool)
    requires Benchmarks.Ready(b, rt).value
    requires var tag := Tag(e, Benchmarks.Ready(b, rt).bench); var rt1 := Benchmarks.Ready(b, rt).rt;
      && Docker.Count(tag, ':') < 2
      && Docker.Reference(tag) !in rt1.images && Docker.Reference(tag) !in rt1.registry
    requires e.location.Some?
    ensures RunAsWritten(b, e, rt, deleteRunner).result == Err(AttributeError("build_args"))
  {
    var ready := Benchmarks.Ready(b, rt);
    ProvisionAsWrittenAgrees(Tag(e, ready.bench), e.location, Err(AttributeError("build_args")), ready.rt);
  }

  /** Whenever `run` as written returns, it returns what the intended
      `run` does, whatever the preparation step. */
  lemma RunAsWrittenAgrees(b: Benchmarks.Benchmark, e: Engines.Engine, rt: Docker.Runtime, prepare: Prepare, deleteRunner: bool)
    requires RunAsWritten(b, e, rt, deleteRunner).result.Ok?
    ensures RunAsWritten(b, e, rt, deleteRunner) == Run(b, e, rt, prepare, deleteRunner)
  {
    var ready := Benchmarks.Ready(b, rt);
    var tag := Tag(e, ready.bench);
    ProvisionAsWrittenAgrees(tag, e.location, Err(AttributeError("build_args")), ready.rt);
    ProvisionAsWrittenAgrees(tag, e.location, ProcessBuildArgs(e.buildArgs, ready.bench), ready.rt);
  }
}

=== FILE: store.dfy ===
/** The record store shared by benchmarks and engines: one JSON file
    `<dir>/<name>.json` per named entity (kaprese/core/benchmark.py and
    kaprese/core/engine.py implement it twice, identically). */
module Store {
  import opened Common
  import opened FileSystem

  function RecordPath(dir: Path, name: Str): Path {
    dir + [name + ".json"]
  }

  /** The `register` method: create the directory if it does not exist;
      if the record file exists and `overwrite` is false write nothing,
      otherwise write the record. */
  function Register(fs: Fs, dir: Path, name: Str, record: Json, overwrite: bool): (r: Result<Fs>)
    requires Valid(fs)
    ensures Exists(fs, RecordPath(dir, name)) && !overwrite ==> r == Ok(fs)
    ensures r.Ok? ==> Valid(r.value)
    ensures r.Ok? && (overwrite || !Exists(fs, RecordPath(dir, name))) ==>
      r.value.files == fs.files[RecordPath(dir, name) := record]
    ensures dir in fs.dirs ==> (r.Ok? <==> RecordPath(dir, name) !in fs.dirs || !overwrite)
  {
    var file := RecordPath(dir, name);
    assert Parent(file) == dir;
    var fs1 := if Exists(fs, dir) then Ok(fs) else MakeDirs(fs, dir);
    if fs1.Err? then fs1
    else if Exists(fs1.value, file) && !overwrite then fs1
    else WriteText(fs1.value, file, record)
  }

  /** The file half of `load`: a missing record is `None`, not an error. */
  function Lookup(fs: Fs, dir: Path, name: Str): (r: Result<Option<Json>>)
    ensures !Exists(fs, RecordPath(dir, name)) ==> r == Ok(None)
    ensures RecordPath(dir, name) in fs.files ==> r == Ok(Some(fs.files[RecordPath(dir, name)]))
    ensures r.Err? <==> RecordPath(dir, name) in fs.dirs && RecordPath(dir, name) !in fs.files
  {
    var file := RecordPath(dir, name);
    if !Exists(fs, file) then Ok(None)
    else match ReadJson(fs, file)
      case Ok(j) => Ok(Some(j))
      case Err(e) => Err(e)
  }

  /** The file half of `unregister`: a missing record is left alone. */
  function Remove(fs: Fs, dir: Path, name: Str): (r: Result<Fs>)
    ensures !Exists(fs, RecordPath(dir, name)) ==> r == Ok(fs)
    ensures r.Ok? ==> r.value.dirs == fs.dirs && r.value.files == fs.files - {RecordPath(dir, name)}
    ensures r.Ok? && Valid(fs) ==> Valid(r.value) && !Exists(r.value, RecordPath(dir, name))
  {
    var file := RecordPath(dir, name);
    if !Exists(fs, file) then Ok(fs) else Unlink(fs, file)
  }

  /** A record read back after it was written is the record written. */
  lemma LookupAfterRegister(fs: Fs, dir: Path, name: Str, record: Json, overwrite: bool)
    requires Valid(fs)
    requires overwrite || !Exists(fs, RecordPath(dir, name))
    requires Register(fs, dir, name, record, overwrite).Ok?
    ensures Lookup(Register(fs, dir, name, record, overwrite).value, dir, name) == Ok(Some(record))
  {
  }

  /** Registering without `overwrite` over an existing record leaves what
      `load` returns unchanged. */
  lemma RegisterKeepsExisting(fs: Fs, dir: Path, name: Str, record: Json)
    requires Valid(fs)
    requires Exists(fs, RecordPath(dir, name))
    ensures Register(fs, dir, name, record, false) == Ok(fs)
    ensures Lookup(fs, dir, name) == Lookup(Register(fs, dir, name, record, false).value, dir, name)
  {
  }

  /** After `unregister` the record is gone and every other record is as
      it was. */
  lemma LookupAfterRemove(fs: Fs, dir: Path, name: Str, other: Str)
    requires Valid(fs)
    requires Remove(fs, dir, name).Ok?
    requires other != name
    ensures Lookup(Remove(fs, dir, name).value, dir, name) == Ok(None)
    ensures Lookup(Remove(fs, dir, name).value, dir, other) == Lookup(fs, dir, other)
  {
    var file := RecordPath(dir, name);
    assert RecordPath(dir, other) != file by {
      assert RecordPath(dir, other)[|dir|] == other + ".json";
      assert file[|dir|] == name + ".json";
      SuffixCancels(other, name, ".json");
    }
  }

  lemma SuffixCancels(a: Str, b: Str, suffix: Str)
    ensures a + suffix == b + suffix ==> a == b
  {
    if a + suffix == b + suffix {
      assert |a| == |b|;
      assert a == (a + suffix)[..|a|];
      assert b == (b + suffix)[..|b|];
    }
  }

  /** Whether a directory entry matches the glob `*.json`. */
  predicate IsJsonName(entry: Str) {
    |entry| >= 5 && entry[|entry| - 5..] == ".json"
  }

  /** `Path(entry).stem` of an entry that matches `*.json`: the name
      without its `.json` suffix, except for the dotfile `.json` itself,
      which has no suffix. */
  function Stem(entry: Str): (r: Str)
    requires IsJsonName(entry)
    ensures |entry| > 5 ==> r + ".json" == entry
    ensures |entry| == 5 ==> r == entry
  {
    if |entry| == 5 then entry else entry[..|entry| - 5]
  }

  /** The stems of the entries of a directory listing matching `*.json`,
      in listing order (`[f.stem for f in path.glob("*.json")]`). */
  function JsonStems(entries: seq<Str>): (r: seq<Str>)
    ensures |r| <= |entries|
    ensures forall i :: 0 <= i < |entries| && IsJsonName(entries[i]) ==> Stem(entries[i]) in r
    ensures forall n :: n in r ==> exists e :: e in entries && IsJsonName(e) && Stem(e) == n
  {
    if |entries| == 0 then []
    else
      var rest := JsonStems(entries[1..]);
      assert forall e :: e in entries[1..] ==> e in entries;
      if IsJsonName(entries[0]) then [Stem(entries[0])] + rest else rest
  }

  /** A record stored under a non-empty name is listed under that name. */
  lemma StemOfRecordName(name: Str)
    requires name != []
    ensures IsJsonName(name + ".json") && Stem(name + ".json") == name
  {
    assert (name + ".json")[|name|..] == ".json";
    assert (name + ".json")[..|name|] == name;
  }

  /** Loads the named records in order with `load`, skipping the names
      with no record and stopping at the first error: the comprehensions of
      `all_benchmarks` and `all_engines` and the loops of the `run`
      command. */
  function LoadEach<T>(load: Str -> Result<Option<T>>, names: seq<Str>): (r: Result<seq<T>>)
    ensures r.Ok? ==> |r.value| <= |names|
  {
    if |names| == 0 then Ok([])
    else
      var first := load(names[0]);
      var rest := LoadEach(load, names[1..]);
      if first.Err? then Err(first.error)
      else if rest.Err? then rest
      else if first.value.None? then rest
      else Ok([first.value.value] + rest.value)
  }

  /** Loading fails exactly when loading one of the names fails. */
  lemma {:induction false} LoadEachFails<T>(load: Str -> Result<Option<T>>, names: seq<Str>)
    ensures LoadEach(load, names).Err? <==> exists k :: 0 <= k < |names| && load(names[k]).Err?
  {
    if |names| > 0 {
      LoadEachFails(load, names[1..]);
      assert forall k :: 1 <= k < |names| ==> names[k] == names[1..][k - 1];
    }
  }

  /** Each loaded record is what its own name loads, and every name that
      loads a record contributes it. */
  lemma {:induction false} LoadEachMembers<T>(load: Str -> Result<Option<T>>, names: seq<Str>)
    requires LoadEach(load, names).Ok?
    ensures forall x :: x in LoadEach(load, names).value ==>
      exists k :: 0 <= k < |names| && load(names[k]) == Ok(Some(x))
    ensures forall k :: 0 <= k < |names| && load(names[k]).Ok? && load(names[k]).value.Some? ==>
      load(names[k]).value.value in LoadEach(load, names).value
  {
    if |names| > 0 {
      LoadEachMembers(load, names[1..]);
      assert forall k :: 1 <= k < |names| ==> names[k] == names[1..][k - 1];
    }
  }

  /** Loading two lists of names is loading each and concatenating. */
  lemma {:induction false} LoadEachAppend<T>(load: Str -> Result<Option<T>>, a: seq<Str>, b: seq<Str>)
    ensures var ra := LoadEach(load, a); var rb := LoadEach(load, b);
      LoadEach(load, a + b) == if ra.Err? then ra else if rb.Err? then rb else Ok(ra.value + rb.value)
  {
    if |a| > 0 {
      assert (a + b)[0] == a[0];
      assert (a + b)[1..] == a[1..] + b;
      LoadEachAppend(load, a[1..], b);
      var first := load(a[0]);
      var ra := LoadEach(load, a[1..]);
      var rb := LoadEach(load, b);
      if first.Ok? && first.value.Some? && ra.Ok? && rb.Ok? {
        assert [first.value.value] + (ra.value + rb.value) == ([first.value.value] + ra.value) + rb.value;
      }
    } else {
      assert a + b == b;
      var rb := LoadEach(load, b);
      assert rb.Ok? ==> [] + rb.value == rb.value;
    }
  }

  /** A name with no record contributes nothing: loading `names`, then
      the unknown name, then `more` loads what `names + more` loads. */
  lemma LoadEachSkipsMissing<T>(load: Str -> Result<Option<T>>, names: seq<Str>, unknown: Str, more: seq<Str>)
    requires load(unknown) == Ok(None)
    ensures LoadEach(load, names + [unknown] + more) == LoadEach(load, names + more)
  {
    LoadEachAppend(load, names + [unknown], more);
    LoadEachAppend(load, names, [unknown]);
    LoadEachAppend(load, names, more);
    assert LoadEach(load, [unknown]) == Ok([]) by {
      assert [unknown][1..] == [];
    }
    var ra := LoadEach(load, names);
    assert ra.Ok? ==> ra.value + [] == ra.value;
  }

  /** Names are not de-duplicated: loading a list twice over loads each
      record twice. */
  lemma LoadEachTwice<T>(load: Str -> Result<Option<T>>, names: seq<Str>)
    requires LoadEach(load, names).Ok?
    ensures LoadEach(load, names + names) == Ok(LoadEach(load, names).value + LoadEach(load, names).value)
  {
    LoadEachAppend(load, names, names);
  }

  /** A record stored under a non-empty name in a directory is listed, and
      so loaded by name, whenever the directory is listed. */
  lemma ListedRecord(fs: Fs, dir: Path, entries: seq<Str>, name: Str)
    requires Valid(fs) && Listing(fs, dir, entries)
    requires name != [] && RecordPath(dir, name) in fs.files
    ensures Exists(fs, dir)
    ensures name in JsonStems(entries)
  {
    assert Parent(RecordPath(dir, name)) == dir;
    StemOfRecordName(name);
    assert Exists(fs, dir + [name + ".json"]);
    assert name + ".json" in entries;
    var i :| 0 <= i < |entries| && entries[i] == name + ".json";
    assert Stem(entries[i]) in JsonStems(entries);
  }
}

=== FILE: strings.dfy ===
/** The two `str` methods the core relies on: `str.strip()` (applied to
    a probe's output) and `str.join` (used to chain shell commands). */
module Strings {
  import opened Common

  /** The characters `str.strip()` removes: those for which Python's
      `str.isspace()` holds. */
  predicate IsSpace(c: char) {
    || c in {' ', '\t', '\n', '\r', '\U{B}', '\U{C}', '\U{1C}', '\U{1D}', '\U{1E}', '\U{1F}'}
    || c in {'\U{85}', '\U{A0}', '\U{1680}', '\U{2028}', '\U{2029}', '\U{202F}', '\U{205F}', '\U{3000}'}
    || ('\U{2000}' <= c <= '\U{200A}')
  }

  /** No whitespace at either end. */
  predicate Stripped(s: Str) {
    s == [] || (!IsSpace(s[0]) && !IsSpace(s[|s| - 1]))
  }

  /** `s.lstrip()`: the suffix of `s` left after its leading whitespace. */
  function TrimStart(s: Str): (r: Str)
    ensures |r| <= |s| && r == s[|s| - |r|..]
    ensures forall i :: 0 <= i < |s| - |r| ==> IsSpace(s[i])
    ensures r == [] || !IsSpace(r[0])
    decreases |s|
  {
    if |s| > 0 && IsSpace(s[0]) then TrimStart(s[1..]) else s
  }

  /** `s.rstrip()`: the prefix of `s` left before its trailing whitespace. */
  function TrimEnd(s: Str): (r: Str)
    ensures |r| <= |s| && r == s[..|r|]
    ensures forall i :: |r| <= i < |s| ==> IsSpace(s[i])
    ensures r == [] || !IsSpace(r[|r| - 1])
    decreases |s|
  {
    if |s| > 0 && IsSpace(s[|s| - 1]) then TrimEnd(s[..|s| - 1]) else s
  }

  /** `s.strip()`: the infix of `s` between its leading and its trailing
      whitespace. */
  function Strip(s: Str): (r: Str)
    ensures Stripped(r) && |r| <= |s|
  {
    var t := TrimStart(s);
    var r := TrimEnd(t);
    assert r == [] || r[0] == t[0];
    r
  }

  /** Everything `strip` removes is whitespace, and what it keeps is a
      contiguous part of the input. */
  lemma StripRemovesOnlySpace(s: Str)
    ensures var r := Strip(s); var a := |s| - |TrimStart(s)|;
      && a + |r| <= |s|
      && r == s[a..a + |r|]
      && (forall i :: 0 <= i < a ==> IsSpace(s[i]))
      && (forall i :: a + |r| <= i < |s| ==> IsSpace(s[i]))
  {
    var t := TrimStart(s);
    var r := TrimEnd(t);
    var a := |s| - |t|;
    assert t == s[a..];
    assert r == t[..|r|];
    forall i | a + |r| <= i < |s| ensures IsSpace(s[i]) {
      assert s[i] == t[i - a];
    }
  }

  /** Stripping twice removes nothing more than stripping once. */
  lemma StripIdempotent(s: Str)
    ensures Strip(Strip(s)) == Strip(s)
  {
    var r := Strip(s);
    assert TrimStart(r) == r;
    assert TrimEnd(r) == r;
  }

  /** `sep.join(parts)`. */
  function Join(parts: seq<Str>, sep: Str): Str {
    if |parts| == 0 then []
    else if |parts| == 1 then parts[0]
    else parts[0] + sep + Join(parts[1..], sep)
  }
}

=== FILE: template.dfy ===
/** Python's `str.format` restricted to what build-argument templates use:
    literal text, the escapes `{{` and `}}`, and replacement fields such as
    `{benchmark.image}` naming one attribute. Fields are looked up in an
    explicit map from field name to its `str()` value. */
module Template {
  import opened Common

  /** A replacement field the model resolves by lookup: no nested braces,
      no conversion (`!r`), no format spec (`:>8`) and no indexing (`[0]`). */
  predicate PlainField(f: Str) {
    forall i :: 0 <= i < |f| ==> f[i] != '{' && f[i] != '}' && f[i] != ':' && f[i] != '!' && f[i] != '['
  }

  predicate NoBraces(s: Str) {
    forall i :: 0 <= i < |s| ==> s[i] != '{' && s[i] != '}'
  }

  /** The first position of `c` in `s`. */
  function IndexOf(s: Str, c: char): (r: Option<nat>)
    ensures r.Some? ==> r.value < |s| && s[r.value] == c && c !in s[..r.value]
    ensures r.None? ==> c !in s
  {
    if |s| == 0 then None
    else if s[0] == c then Some(0)
    else
      var r := IndexOf(s[1..], c);
      if r.None? then None
      else
        assert s[..r.value + 1] == [s[0]] + s[1..][..r.value];
        Some(r.value + 1)
  }

  function Prepend(p: Str, r: Result<Str>): Result<Str> {
    if r.Ok? then Ok(p + r.value) else r
  }

  /** `template.format(**fields)`. A lone `{` or `}` raises `ValueError`;
      a field that names nothing in `env` raises (`KeyError` stands for the
      `KeyError`/`AttributeError`/`IndexError` Python picks). Text without
      braces is returned unchanged. */
  function Format(t: Str, env: map<Str, Str>): (r: Result<Str>)
    ensures NoBraces(t) ==> r == Ok(t)
    decreases |t|
  {
    if |t| == 0 then Ok([])
    else if t[0] == '{' then
      if |t| >= 2 && t[1] == '{' then Prepend("{", Format(t[2..], env))
      else match IndexOf(t[1..], '}')
        case None => Err(ValueError("Single '{' encountered in format string"))
        case Some(j) =>
          var field := t[1..j + 1];
          if !PlainField(field) then Err(ValueError("unsupported replacement field"))
          else if field !in env then Err(KeyError(field))
          else Prepend(env[field], Format(t[j + 2..], env))
    else if t[0] == '}' then
      if |t| >= 2 && t[1] == '}' then Prepend("}", Format(t[2..], env))
      else Err(ValueError("Single '}' encountered in format string"))
    else
      var r := Format(t[1..], env);
      assert NoBraces(t) ==> NoBraces(t[1..]);
      assert NoBraces(t) ==> [t[0]] + t[1..] == t;
      Prepend([t[0]], r)
  }

  /** Doubles every brace, so that formatting gives the text back. */
  function Escape(s: Str): Str {
    if |s| == 0 then []
    else (if s[0] == '{' || s[0] == '}' then [s[0], s[0]] else [s[0]]) + Escape(s[1..])
  }

  /** Formatting an escaped text yields that text, whatever the fields. */
  lemma {:induction false} FormatEscape(s: Str, env: map<Str, Str>)
    ensures Format(Escape(s), env) == Ok(s)
  {
    if |s| > 0 {
      var t := Escape(s);
      FormatEscape(s[1..], env);
      if s[0] == '{' || s[0] == '}' {
        assert t[2..] == Escape(s[1..]);
      } else {
        assert t[1..] == Escape(s[1..]);
      }
      assert s == [s[0]] + s[1..];
    }
  }

  /** A plain field is replaced by its value and formatting continues
      after the closing brace. */
  lemma FormatField(f: Str, rest: Str, env: map<Str, Str>)
    requires PlainField(f) && f in env
    ensures Format("{" + f + "}" + rest, env) == Prepend(env[f], Format(rest, env))
  {
    var t := "{" + f + "}" + rest;
    assert t[1..] == f + "}" + rest;
    assert '}' !in f by {
      forall i | 0 <= i < |f| ensures f[i] != '}' { }
    }
    assert (f + "}" + rest)[..|f|] == f;
    var j := IndexOf(t[1..], '}');
    assert t[1..][|f|] == '}';
    assert j == Some(|f|);
    assert t[1..|f| + 1] == f;
    assert t[|f| + 2..] == rest;
  }
}
